=== FILE: README.md ===
# Road-maintenance genetic algorithm: a Dafny model

This project models the optimiser behind a road-maintenance planner. Its input is a catalogue of
candidate resurfacing segments (`id`, `start_m`, `end_m`, `cost`) and a list of point distresses
(`id`, `location_m`, `deduction`, `cost_local`). A chromosome holds one gene per segment followed by one
gene per distress. A segment gene of 1 selects that segment for resurfacing, and a distress gene of 1
asks for a local repair of that distress. The optimiser searches for the chromosome with the highest
penalised fitness, tracks the best one it has seen, and decodes that one into a report.

The model has three parts, matching the three core files:

- `genetic_algorithm.dfy`, module `Genetic`: the class `GeneticAlgorithm`. Its parameters are
  `const` fields. The best-ever chromosome, fitness, cost and benefit are mutable fields that the
  evaluation loop updates in place.
  - The evaluation loops of `compute_fitness` and `decode_solution` are methods with loop
    invariants. They are proved equal to the pure definitions in `evaluation.dfy`, module
    `Evaluation`.
  - `mutate` works in place on an `array<int>`.
  - `run` keeps its generational loop. Its breeding `while` loop is proved to build exactly `Bred`, a
    function of the old population, its fitnesses and the random draws of that generation. The
    population evaluated in generation g is proved to be `Evolve(g)`.
- `data_parser.dfy`, module `DataParser`: `parse_distress` and `parse_segments` over rows that are
  already split into fields. This covers the header check, skipping rows without an id, stripping
  the id, swapping reversed segment ends, and the two "empty data" errors with their exact messages.
- `journal_data.dfy`, module `JournalData`: the built-in case study. It holds the twenty-row
  distress table, the deduction estimate, the cost-by-length table, and the candidate-segment
  generator. The generator is modelled as its nested loops: centring, moving onto the 0–12000 m road,
  the 10 m duplicate tolerance, and numbering `S1, S2, …`.

Shared pieces:

- `road.dfy` holds the segment and distress records.
- `text.dfy` holds `str.strip()` and the decimal printing used for ids.
- `wrappers.dfy` holds `Option` and `Result`.

Every random draw of the Python program is an explicit argument:

- a function `coin(p, g)` gives the initial genes;
- one `PairDraws` record per bred pair gives the tournament indices, the crossover draw, the cut
  point and one mutation draw per gene of each child;
- each generation has its own sequence of `PairDraws` records.

Properties proved include:

- Fitness and decoding:
  - the decoder's totals agree with the evaluator's (`ReportAgreesWithFitness`);
  - segment coverage takes precedence over the local-repair gene;
  - the gene of a covered distress changes neither cost, benefit nor fitness;
  - the overlap count is zero exactly when no two chosen segments overlap;
  - segments that only touch at an end do not overlap.
- The search:
  - the best-ever fitness bounds the fitness of every individual evaluated in any generation;
  - the recorded best is replaced only by a strictly fitter individual, so it is the first
    individual evaluated with the highest fitness;
  - every generation has `pop_size` binary chromosomes of genome length;
  - the tournament winner is the first-seen strict maximum, and it is unique.
- Parsing and the case study:
  - parsing is row-by-row, and fails with "empty" exactly when no row has an id;
  - generated distress ids are distinct, and so are generated segment ids;
  - every generated segment lies on the road, has a tabled length and cost, and no later segment
    duplicates an earlier one;
  - every kept segment is the segment of a fitting candidate, kept in the order the loops offer
    them;
  - every (length, distress) candidate that fits on the road is represented by a kept segment
    within the tolerance, kept no later than its own turn, so a candidate is kept exactly when no
    segment kept before it duplicates it (`KeptIffNoEarlierNear`);
  - the guarantee that such a kept segment also covers the distress holds for lengths of at least
    20 m when the candidate needed no moving (`NearSegmentCoversDistress`), and fails below that
    (`ShortNearSegmentMissesDistress`) or near the road's ends (`MovedNearSegmentMissesDistress`).

## Model

| member | source | states |
|---|---|---|
| Text.ContentStart | modules/data_parser.py:39 | the leading-whitespace scan stops at the first non-whitespace character (or the end), having passed only whitespace |
| Text.ContentEnd | modules/data_parser.py:39 | the trailing-whitespace scan stops just after the last non-whitespace character (or at the lower bound), having passed only whitespace |
| Text.Strip | modules/data_parser.py:39 | `id.strip()` is the slice of the id between a whitespace-only prefix and a whitespace-only suffix, and starts and ends with non-whitespace when non-empty; whitespace is exactly what Python 3's `str.isspace()` accepts |
| Text.StripIdempotent | modules/data_parser.py:39 | stripping a stripped id changes nothing |
| Text.NatToString | modules/journal_data.py:50 | `str(n)` is a non-empty string of decimal digits |
| Text.DecimalValueOfNatToString | modules/journal_data.py:50 | reading back the digits of `str(n)` gives n (round trip) |
| Text.NatToStringInjective | modules/journal_data.py:130 | distinct numbers print as distinct strings |
| Text.PrefixedIdInjective | modules/journal_data.py:50 | ids `D<n>` / `S<n>` built from distinct numbers are distinct |
| DataParser.ToDistress | modules/data_parser.py:39-43 | the record of a distress row carries location, deduction and local cost unchanged, and its id is the raw id stripped, so it is no longer than the raw one and has no whitespace at either end |
| DataParser.KeptDistresses | modules/data_parser.py:34-43 | there are no more records than rows, and every kept id has no whitespace at either end |
| DataParser.ToSegment | modules/data_parser.py:74-85 | the record of a segment row has start <= end: the ends are swapped exactly when `end < start`; the id is stripped and the cost is `cost_resurfacing` |
| DataParser.KeptSegments | modules/data_parser.py:70-85 | every kept segment has start <= end |
| DataParser.KeptDistressesAppend | modules/data_parser.py:34-43 | the parsed records of a concatenation are the concatenation of the parsed records: rows are parsed one by one, in order |
| DataParser.KeptSegmentsAppend | modules/data_parser.py:70-85 | the same for segment rows |
| DataParser.KeptDistressesEmptyIff | modules/data_parser.py:35-46 | no distress record is kept exactly when no row has a non-empty id |
| DataParser.KeptSegmentsEmptyIff | modules/data_parser.py:71-88 | no segment record is kept exactly when no row has a non-empty id |
| DataParser.ParseDistress | modules/data_parser.py:14-48 | a header lacking a required column fails with the header message; otherwise an empty result fails with the empty-data message; otherwise the result is the records of the rows with an id, in order |
| DataParser.ParseSegments | modules/data_parser.py:50-90 | the same three outcomes for segments; a success is non-empty and every segment has start <= end |
| Evaluation.SegmentsOverlap | modules/genetic_algorithm.py:40-45 | `max(starts) < min(ends)` holds exactly when both segments have positive length and each starts before the other ends |
| Evaluation.OverlapIffSharedInterior | modules/genetic_algorithm.py:40-45 | two segments overlap exactly when some point lies strictly inside both (touching ends do not overlap) |
| Evaluation.ChosenIndices | modules/genetic_algorithm.py:59 | `chosen_seg_idx` holds exactly the positions whose gene is 1, in strictly increasing order |
| Evaluation.CostOfChosenIndices | modules/genetic_algorithm.py:58-62 | summing costs over `chosen_seg_idx` equals summing the costs of the segments whose gene is 1 |
| Evaluation.SelectedCostBounds | modules/genetic_algorithm.py:58-62 | with non-negative costs, the chosen segments cost between 0 and the cost of all the segments (each paid for at most once) |
| Evaluation.NotCoveredByChosen | modules/genetic_algorithm.py:80-86 | a location that no segment of `chosen_seg_idx` covers is covered by no segment whose gene is 1 |
| Evaluation.PrefixStep | modules/genetic_algorithm.py:75-97 | one more distress adds exactly its own local charge to the cost and its own gain to the benefit |
| Evaluation.LocalCostBounds | modules/genetic_algorithm.py:73-97 | with non-negative local costs, the local-repair cost lies between 0 and the sum of all local costs (each distress paid for at most once) |
| Evaluation.BenefitBounds | modules/genetic_algorithm.py:73-97 | with non-negative deductions the benefit lies between 0 and the sum of all deductions (each distress counts at most once) |
| Evaluation.CoveredGeneIrrelevant | modules/genetic_algorithm.py:80-95 | changing the gene of a distress covered by a chosen segment changes neither the local cost nor the benefit |
| Evaluation.RowOverlaps | modules/genetic_algorithm.py:67-71 | the inner loop for row i counts at most one overlap per later position |
| Evaluation.OverlapRows | modules/genetic_algorithm.py:64-71 | the first m rows of the nested loops count at most (n-1) + … + (n-m) overlaps, one per pair they visit |
| Evaluation.RowOverlapsZero | modules/genetic_algorithm.py:67-71 | the inner overlap loop counts zero exactly when the row's segment overlaps none after it |
| Evaluation.OverlapRowsZero | modules/genetic_algorithm.py:64-71 | the nested loops count zero exactly when no pair of chosen segments overlaps |
| Evaluation.TotalCost | modules/genetic_algorithm.py:58-97 | `total_cost`: with non-negative costs it lies between 0 and the cost of every segment plus every local repair |
| Evaluation.TotalBenefit | modules/genetic_algorithm.py:73-97 | `total_benefit`: with non-negative deductions it lies between 0 and the sum of all deductions |
| Evaluation.OverlapCount | modules/genetic_algorithm.py:64-71 | `overlap_count` is at most the number of unordered pairs of chosen segments, n(n-1)/2 |
| Evaluation.Fitness | modules/genetic_algorithm.py:99-104 | with non-negative penalty weights the fitness never exceeds the benefit |
| Evaluation.OverlapCountZeroIff | modules/genetic_algorithm.py:64-71 | `overlap_count == 0` exactly when the chosen segments are pairwise non-overlapping |
| Evaluation.FitnessOfTotals | modules/genetic_algorithm.py:99-104 | two chromosomes with equal cost, benefit and overlap count have equal fitness |
| Evaluation.FeasibleFitnessIsBenefit | modules/genetic_algorithm.py:99-104 | within budget and overlap-free, the fitness equals the benefit (no penalty applies) |
| Evaluation.CoveredDistressGeneIrrelevant | modules/genetic_algorithm.py:73-97 | the gene of a covered distress affects neither cost, benefit nor fitness of the chromosome |
| Evaluation.Classify | modules/genetic_algorithm.py:215-236 | a distress is labelled Resurfacing exactly when covered, Local repair exactly when uncovered with gene 1, and repaired exactly when the evaluator counts it repaired |
| Evaluation.StatusTotals | modules/genetic_algorithm.py:215-244 | the deductions of the entries marked repaired sum to the evaluator's benefit; the local costs of the "Local repair" entries sum to its local cost |
| Evaluation.ChosenSegmentsCost | modules/genetic_algorithm.py:202-213 | the costs of the listed segments sum to the cost of the chosen segments |
| Evaluation.ReportAgreesWithFitness | modules/genetic_algorithm.py:194-253 | in the report of a chromosome, repaired deductions sum to `total_benefit`, and segment costs plus local-repair costs sum to `total_cost` |
| Genetic.Mutated | modules/genetic_algorithm.py:140-146 | a gene changes exactly when its draw is below the rate and then becomes `1 - gene`; binary chromosomes stay binary |
| Genetic.Splice | modules/genetic_algorithm.py:136-137 | `a[:cut] + b[cut:]` takes gene i from `a` below the cut and from `b` from it on |
| Genetic.BestPick | modules/genetic_algorithm.py:119-125 | the chosen sample has the highest fitness among the samples and strictly exceeds every earlier sample (first-seen maximum) |
| Genetic.WinnerUnique | modules/genetic_algorithm.py:119-125 | that characterisation determines the tournament winner uniquely |
| Genetic.Interleave | modules/genetic_algorithm.py:185-187 | appending both children of every pair gives two members per pair |
| Genetic.InterleaveMember | modules/genetic_algorithm.py:185-187 | the children of pair t are appended at positions 2t and 2t + 1 |
| Genetic.InterleaveKeeps | modules/genetic_algorithm.py:171-187 | members appended in pairs keep the genome length and binary genes of the children |
| Genetic.GeneticAlgorithm.constructor | modules/genetic_algorithm.py:14-38 | stores every parameter, with the same defaults (50, 100, 0.8, 0.05, 0.5, 1000.0); no best individual yet (standing for `-inf`), best cost and benefit 0 |
| Genetic.GeneticAlgorithm.ChosenCost | modules/genetic_algorithm.py:58-62 | the cost loop sums the costs of the chosen segments |
| Genetic.GeneticAlgorithm.CountOverlaps | modules/genetic_algorithm.py:64-71 | the nested loops count the overlapping pairs i < j of chosen segments |
| Genetic.GeneticAlgorithm.CoveredByChosen | modules/genetic_algorithm.py:80-86 | the scan with `break` finds a cover exactly when some chosen segment covers the location |
| Genetic.GeneticAlgorithm.AddDistressTerms | modules/genetic_algorithm.py:73-97 | the distress loop adds the local costs of uncovered distresses with gene 1 and sums the deductions of repaired ones |
| Genetic.GeneticAlgorithm.ComputeTotals | modules/genetic_algorithm.py:51-97 | the accumulated cost, benefit and overlap count are those of the chromosome |
| Genetic.GeneticAlgorithm.ComputeFitness | modules/genetic_algorithm.py:47-106 | `compute_fitness` returns the fitness, total cost and total benefit of the chromosome |
| Genetic.GeneticAlgorithm.InitPopulation | modules/genetic_algorithm.py:108-113 | `pop_size` binary chromosomes of genome length, gene g of individual p being 1 exactly when its draw is |
| Genetic.GeneticAlgorithm.TournamentSelection | modules/genetic_algorithm.py:115-126 | the winner is a copy of the first-seen fittest sampled individual |
| Genetic.GeneticAlgorithm.OnePointCrossover | modules/genetic_algorithm.py:128-138 | copies of the parents when the draw exceeds the rate; otherwise the children swap tails at the cut point; at every gene the children hold the parents' two genes, kept or swapped; binary stays binary |
| Genetic.GeneticAlgorithm.Mutate | modules/genetic_algorithm.py:140-146 | the array afterwards holds exactly the mutated genes of its old contents |
| Genetic.GeneticAlgorithm.EvaluatePopulation | modules/genetic_algorithm.py:158-168 | fitness i is that of individual i; afterwards the best fitness is at least each of them; either the record (chromosome, fitness, cost, benefit) is untouched, or it is individual w, strictly fitter than the old record, with every individual before w strictly less fit (`f > best_fitness`: a tie keeps the first) |
| Genetic.GeneticAlgorithm.FitnessesOf | modules/genetic_algorithm.py:158-161 | one fitness per individual |
| Genetic.GeneticAlgorithm.Offspring | modules/genetic_algorithm.py:173-182 | the two children of one draw record have genome length, and are binary when the population is |
| Genetic.GeneticAlgorithm.OffspringList | modules/genetic_algorithm.py:172-187 | entry t is the pair bred from draw record t, with genome length, binary when the population is |
| Genetic.GeneticAlgorithm.Bred | modules/genetic_algorithm.py:170-189 | the next generation has `pop_size` members of genome length |
| Genetic.GeneticAlgorithm.BredBinary | modules/genetic_algorithm.py:170-189 | breeding from binary chromosomes yields binary chromosomes |
| Genetic.GeneticAlgorithm.BredMember | modules/genetic_algorithm.py:184-187 | member 2t is the first child of pair t, and member 2t + 1 its second child when within `pop_size` (an odd population drops the last second child) |
| Genetic.GeneticAlgorithm.BreedPair | modules/genetic_algorithm.py:173-182 | two tournaments, crossover and in-place mutation of both children yield exactly `Offspring` of the draw record |
| Genetic.GeneticAlgorithm.BreedStep | modules/genetic_algorithm.py:172-187 | one pass of the `while` loop appends the next one or two members of the next generation |
| Genetic.GeneticAlgorithm.NextGeneration | modules/genetic_algorithm.py:170-189 | the breeding loop builds exactly `Bred` of the population, its fitnesses and the draws |
| Genetic.GeneticAlgorithm.Successor | modules/genetic_algorithm.py:156-189 | breeding from a population with its own fitnesses keeps `pop_size` binary chromosomes of genome length |
| Genetic.GeneticAlgorithm.Evolve | modules/genetic_algorithm.py:153-189 | every generation has `pop_size` binary chromosomes of genome length |
| Genetic.GeneticAlgorithm.BreedGeneration | modules/genetic_algorithm.py:170-189 | breeding generation g, with its own fitnesses and draws, gives exactly `Evolve(g + 1)` |
| Genetic.GeneticAlgorithm.FitnessBoundExtend | modules/genetic_algorithm.py:163-168 | a best fitness that bounds the earlier generations and the new one bounds the extended record |
| Genetic.GeneticAlgorithm.TrackedExtend | modules/genetic_algorithm.py:156-168 | a generation whose evaluation left the record alone keeps its position; one that replaced it moves it to individual w of the new generation, and every individual evaluated before it, in earlier generations or earlier in this one, is strictly less fit |
| Genetic.GeneticAlgorithm.Evaluate | modules/genetic_algorithm.py:158-168 | evaluating a generation keeps the best fitness an upper bound on every individual recorded so far, and changes the record only as EvaluatePopulation says (strictly fitter, first of the ties) |
| Genetic.GeneticAlgorithm.Generation | modules/genetic_algorithm.py:156-189 | one generation records the evaluated population, computes `Evolve` of the next index, and changes the record only as EvaluatePopulation says |
| Genetic.GeneticAlgorithm.Generations | modules/genetic_algorithm.py:153-190 | the population evaluated in generation g is `Evolve(g)`; the best fitness bounds every evaluated individual; the record is either untouched or individual w of generation g, strictly fitter than the starting record, with every individual evaluated before it strictly less fit |
| Genetic.GeneticAlgorithm.Run | modules/genetic_algorithm.py:148-192 | the generations are `Evolve(0) … Evolve(generations-1)`; the reported individual is the starting record, or the first evaluated individual of the highest fitness when that is strictly fitter than the starting record (always, from a fresh instance); the report decodes it; its repaired deductions sum to its benefit |
| Genetic.GeneticAlgorithm.ListChosenSegments | modules/genetic_algorithm.py:202-213 | one report entry per chosen segment, in catalogue order, with length `end - start` |
| Genetic.GeneticAlgorithm.DistressStatusOf | modules/genetic_algorithm.py:217-244 | the entry of a distress carries the label `Classify` gives it, scanning only the listed segments |
| Genetic.GeneticAlgorithm.DecodeSolution | modules/genetic_algorithm.py:194-253 | the report decodes the best individual; repaired deductions sum to `total_benefit`; segment plus local-repair costs sum to `total_cost` |
| JournalData.EstimateDeduction | modules/journal_data.py:39-41 | the deduction is one twentieth of the local cost, and lies between 0 and that cost for a non-negative cost |
| JournalData.GetJournalDistresses | modules/journal_data.py:44-55 | one record per table row, in order: id `D<n>`, location `km*1000+plus`, deduction cost/20, local cost; distinct numbers give distinct ids |
| JournalData.CandidateStart | modules/journal_data.py:108-117 | the start is the centred one when that fits on the road, and any length up to 12000 m ends up within the road |
| JournalData.HasNearPrefix | modules/journal_data.py:120-126 | a candidate already near a kept segment stays near after more segments are appended |
| JournalData.NearSegmentCoversDistress | modules/journal_data.py:106-126 | with a length of at least 20 m and no moving needed, a kept segment within the tolerance of the centred candidate covers the distress |
| JournalData.ShortNearSegmentMissesDistress | modules/journal_data.py:120-126 | a 5 m segment at 100 m counts as a duplicate of the candidate for a distress at 108 m yet does not cover it |
| JournalData.MovedNearSegmentMissesDistress | modules/journal_data.py:113-126 | the candidate for a distress at 5 m is moved to start at 0, and a 100 m segment starting at 8 m counts as its duplicate yet does not cover the distress |
| JournalData.FromCandidatesAppend | modules/journal_data.py:128-136 | appending the segment of a candidate visited after all earlier ones keeps "every segment comes from a candidate, in visiting order" |
| JournalData.CoverageStep | modules/journal_data.py:107-126 | once the next location is covered, every location visited so far stays covered by the extended list |
| JournalData.OfferKeepsOrigin | modules/journal_data.py:107-136 | offering one candidate keeps every segment traced to a fitting candidate, all visited before the next one, and records the candidate exactly when its segment is appended |
| JournalData.KeptIffNoEarlierNear | modules/journal_data.py:118-136 | the greedy rule: for the generator's output, a fitting candidate is kept exactly when no segment kept before it counts as its duplicate |
| JournalData.OriginOrder | modules/journal_data.py:103-107 | a candidate offered earlier sits at an earlier position of the output |
| JournalData.MiddleOnlyNotCoveredInTurn | modules/journal_data.py:118-136 | for three candidates 8 m apart, a list holding only the middle one's segment leaves the first candidate without a duplicate kept in its turn |
| JournalData.KeptNearByPrefix | modules/journal_data.py:128-136 | a duplicate kept no later than a candidate stays so when more segments are appended |
| JournalData.OfferedKeptNearBy | modules/journal_data.py:118-136 | the candidate just offered has a duplicate kept in its turn: its own segment when kept, the earlier duplicate otherwise |
| JournalData.OfferCoversInTurn | modules/journal_data.py:107-136 | one offer widens by one the prefix of candidates covered in their turn |
| JournalData.CoveredThroughLength | modules/journal_data.py:103-107 | covering every location of one length in turn covers everything offered before the next length |
| JournalData.SegmentIdsDistinct | modules/journal_data.py:130 | in a well-formed segment list no two segments share an id |
| JournalData.JournalLocations | modules/journal_data.py:95-96 | the location list has one entry per case-study distress |
| JournalData.IsDuplicate | modules/journal_data.py:120-126 | the scan with `break` reports a duplicate exactly when some kept segment starts within 10 m with a length within 1 m |
| JournalData.NewSegment | modules/journal_data.py:128-136 | the appended segment is as long as its length and is near its own candidate |
| JournalData.OfferCandidate | modules/journal_data.py:107-136 | the candidate is appended exactly when it fits on the road and has no near duplicate; the invariants are kept; afterwards a fitting candidate is represented |
| JournalData.OfferLocations | modules/journal_data.py:107-136 | offering every location with one length extends the list, keeps the invariants, represents every fitting candidate, every kept segment is the segment of a fitting candidate of this or an earlier length in visiting order, and every candidate offered so far has a duplicate kept no later than its own turn |
| JournalData.GenerateSegments | modules/journal_data.py:103-136 | the result is well formed (on the road, tabled length and cost, ids `S1…` by position), has distinct ids and no near duplicates, every segment in it is the segment of a fitting candidate in visiting order, and every fitting candidate has a duplicate kept no later than its own turn, so by `KeptIffNoEarlierNear` a candidate is kept exactly when no earlier kept segment duplicates it |
| JournalData.AppendKeepsInvariants | modules/journal_data.py:128-136 | appending a well-formed segment that duplicates none keeps both invariants |
| JournalData.GetJournalSegments | modules/journal_data.py:84-138 | the same facts for the case-study distresses, the efficient lengths and the cost table: well formed, distinct ids, no near duplicates, every segment from a candidate, and every candidate covered in its turn |

## Left out

- Randomness is not modelled as a distribution. The draws of `random.randint` and `random.random`
  are parameters: `coin`, `PairDraws` and the per-generation sequences. The model does not state the
  uniform distributions, and extra draws are simply unused.
- Python floats are modelled as exact reals, so rounding error in sums and in `length / 2` is not
  captured. NaN and the infinities, which `float()` also accepts, are not modelled either. With a NaN
  end, `end < start` is false, so the Python program keeps a segment for which `start_m <= end_m`
  fails; the `ParseSegments` contract does not cover that case.
- JournalData.EstimateDeduction: the deduction is exactly `cost / 20`; the `round(…, 2)` of the
  Python program is not modelled.
- JournalData.GetJournalDistresses: it inherits the same exact `cost / 20` in place of the rounded
  value.
- Genetic.GeneticAlgorithm.DecodeSolution: the reported fitness, cost and benefit are the exact
  values; the `round(…, 3)` of the Python program is not modelled.
- Genetic.GeneticAlgorithm.Run: requires `pop_size >= 1` and `generations >= 1`. With either at 0
  the Python program decodes `best_chromosome = None` and raises `TypeError`; that crash path is not
  modelled.
- Genetic.GeneticAlgorithm.ValidPairDraws: requires a cut point in `[1, genome_length - 1]`
  whenever crossover happens. With a genome of length 1, `randint(1, 0)` raises `ValueError`; the
  model covers only the runs where crossover is skipped, and that exception is not modelled.
- Tournament indices are required to lie in the population, which `randint(0, len - 1)` guarantees.
  The empty population, where `randint` raises, is excluded by `pop_size >= 1`.
- Genetic.GeneticAlgorithm.ComputeFitness: requires a chromosome of genome length, which every
  chromosome the algorithm builds has. On other lengths the Python program behaves differently, and the
  model does not cover that. A shorter chromosome raises `IndexError` only when `loc_bits[idx]` is
  read for an uncovered distress; if every missing distress is covered, the call returns normally.
  A longer one is accepted and its extra genes are ignored.
- Populations are sequence values. Only `mutate` works on an array in place, so list aliasing
  between generations is not modelled. The Python program copies parents (`best[:]`, `p1[:]`) before
  changing them, so no sharing is observable.
- CSV reading is not modelled: `csv.DictReader`, `csv_text.strip()` and the text-to-float
  conversions are outside the model. The parser receives the header as a list of column names
  (empty when there is none) and rows with an optional id and numeric fields that are already
  converted. Two failures of the conversion are not modelled: a malformed number makes `float()`
  raise `ValueError`, and a short row that has an id but lacks a numeric field gets `None` for that
  field from `csv.DictReader`, so `float(None)` raises `TypeError`.
- The web layer (`app.py`), the browser script (`static/js/main.js`) and timing are not part of this
  model.
- The code has no repair operator, no elitism, no fitness cache, no per-generation fitness history,
  no rejection of infeasible chromosomes and no validation of parameters or catalogues, so the model
  has none either. Initial genes are 0 or 1 with equal chance, and a genome of length 1 makes
  crossover raise (see above).
- The journal generator's promise that each distress gets a segment covering it is proved only for
  lengths of at least 20 m whose centred candidate needed no moving (`NearSegmentCoversDistress`).
  Outside those conditions it fails, because a candidate can be dropped as a duplicate of a kept
  segment that misses its distress:
  - the 10 m start tolerance exceeds half of the 5, 10 and 15 m lengths
    (`ShortNearSegmentMissesDistress`);
  - near an end of the road a candidate is moved, and then a segment of any length can start
    within the tolerance yet miss the distress (`MovedNearSegmentMissesDistress`).

  The case-study distresses lie at least 80 m apart and at least 484 m from either end of the
  road. The model keeps the code's tolerance.

=== FILE: data_parser.dfy ===
/**
  Row-level validation and normalisation of the two CSV inputs. Rows arrive already split
  into fields: the id as read (absent for a short row) and the numeric fields as reals.
*/
module DataParser {
  import opened Wrappers
  import opened Road
  import opened Text

  /** The `ValueError` the parser raises, with its message. */
  datatype ParseError = ValueError(message: string)

  const DistressHeaderMessage: string := "Header distress CSV harus: id,location_m,deduction,cost_local"
  const EmptyDistressMessage: string := "Data distress kosong. Pastikan ada data selain header."
  const SegmentHeaderMessage: string := "Header segment CSV harus: id,start_m,end_m,cost_resurfacing"
  const EmptySegmentMessage: string := "Data segmen kosong. Pastikan ada data selain header."

  const DistressFields: seq<string> := ["id", "location_m", "deduction", "cost_local"]
  const SegmentFields: seq<string> := ["id", "start_m", "end_m", "cost_resurfacing"]

  datatype DistressRow = DistressRow(id: Option<string>, locationM: real, deduction: real, costLocal: real)
  datatype SegmentRow = SegmentRow(id: Option<string>, startM: real, endM: real, costResurfacing: real)

  /** Every required column name occurs in the header. */
  predicate HasFields(header: seq<string>, required: seq<string>) {
    forall f :: f in required ==> f in header
  }

  /** `row.get("id")` is truthy: present and not the empty string. */
  predicate HasId(id: Option<string>) {
    id.Some? && id.value != ""
  }

  /** The record of a distress row: the id stripped, the three numbers carried unchanged. */
  function ToDistress(row: DistressRow): (d: Distress)
    requires HasId(row.id)
    ensures d.id == Strip(row.id.value)
    ensures Trimmed(d.id) && |d.id| <= |row.id.value|
    ensures d.locationM == row.locationM && d.deduction == row.deduction && d.costLocal == row.costLocal
  {
    Distress(Strip(row.id.value), row.locationM, row.deduction, row.costLocal)
  }

  /** The record of a segment row: the id stripped, the cost taken from `cost_resurfacing`,
      and the two ends swapped when the end lies before the start. */
  function ToSegment(row: SegmentRow): (s: Segment)
    requires HasId(row.id)
    ensures s.startM <= s.endM
    ensures row.endM < row.startM ==> s.startM == row.endM && s.endM == row.startM
    ensures row.startM <= row.endM ==> s.startM == row.startM && s.endM == row.endM
    ensures s.id == Strip(row.id.value) && s.cost == row.costResurfacing
  {
    if row.endM < row.startM then Segment(Strip(row.id.value), row.endM, row.startM, row.costResurfacing)
    else Segment(Strip(row.id.value), row.startM, row.endM, row.costResurfacing)
  }

  /** The records of the rows that have an id, in input order: no more records than rows, and
      every id stripped. */
  function KeptDistresses(rows: seq<DistressRow>): (distresses: seq<Distress>)
    ensures |distresses| <= |rows|
    ensures forall k :: 0 <= k < |distresses| ==> Trimmed(distresses[k].id)
    decreases |rows|
  {
    if rows == [] then []
    else
      var last := rows[|rows| - 1];
      KeptDistresses(rows[..|rows| - 1]) + (if HasId(last.id) then [ToDistress(last)] else [])
  }

  /** The records of the rows that have an id, in input order; each has start <= end. */
  function KeptSegments(rows: seq<SegmentRow>): (segments: seq<Segment>)
    ensures forall k :: 0 <= k < |segments| ==> segments[k].startM <= segments[k].endM
    decreases |rows|
  {
    if rows == [] then []
    else
      var last := rows[|rows| - 1];
      KeptSegments(rows[..|rows| - 1]) + (if HasId(last.id) then [ToSegment(last)] else [])
  }

  /** Parsing distributes over concatenation: rows are handled one by one, in order, and each
      row's record depends on that row alone. */
  lemma {:induction false} KeptDistressesAppend(a: seq<DistressRow>, b: seq<DistressRow>)
    ensures KeptDistresses(a + b) == KeptDistresses(a) + KeptDistresses(b)
    decreases |b|
  {
    if b != [] {
      var n := |b|;
      assert (a + b)[..|a + b| - 1] == a + b[..n - 1];
      KeptDistressesAppend(a, b[..n - 1]);
    } else {
      assert a + b == a;
    }
  }

  lemma {:induction false} KeptSegmentsAppend(a: seq<SegmentRow>, b: seq<SegmentRow>)
    ensures KeptSegments(a + b) == KeptSegments(a) + KeptSegments(b)
    decreases |b|
  {
    if b != [] {
      var n := |b|;
      assert (a + b)[..|a + b| - 1] == a + b[..n - 1];
      KeptSegmentsAppend(a, b[..n - 1]);
    } else {
      assert a + b == a;
    }
  }

  /** Nothing is kept exactly when no row has an id. */
  lemma {:induction false} KeptDistressesEmptyIff(rows: seq<DistressRow>)
    ensures KeptDistresses(rows) == [] <==> forall i :: 0 <= i < |rows| ==> !HasId(rows[i].id)
    decreases |rows|
  {
    if rows != [] {
      var init, last := rows[..|rows| - 1], rows[|rows| - 1];
      KeptDistressesEmptyIff(init);
      var kept := KeptDistresses(init);
      assert KeptDistresses(rows) == kept + (if HasId(last.id) then [ToDistress(last)] else []);
      assert KeptDistresses(rows) == [] <==> kept == [] && !HasId(last.id);
      assert (forall i :: 0 <= i < |rows| ==> !HasId(rows[i].id)) <==>
             (forall i :: 0 <= i < |init| ==> !HasId(init[i].id)) && !HasId(last.id) by {
        assert forall i :: 0 <= i < |init| ==> init[i] == rows[i];
      }
    }
  }

  lemma {:induction false} KeptSegmentsEmptyIff(rows: seq<SegmentRow>)
    ensures KeptSegments(rows) == [] <==> forall i :: 0 <= i < |rows| ==> !HasId(rows[i].id)
    decreases |rows|
  {
    if rows != [] {
      var init, last := rows[..|rows| - 1], rows[|rows| - 1];
      KeptSegmentsEmptyIff(init);
      assert KeptSegments(rows) == [] <==> KeptSegments(init) == [] && !HasId(last.id);
      assert (forall i :: 0 <= i < |rows| ==> !HasId(rows[i].id)) <==>
             (forall i :: 0 <= i < |init| ==> !HasId(init[i].id)) && !HasId(last.id) by {
        assert forall i :: 0 <= i < |init| ==> init[i] == rows[i];
      }
    }
  }

  /** `DataParser.parse_distress`. */
  method ParseDistress(header: seq<string>, rows: seq<DistressRow>) returns (r: Result<seq<Distress>, ParseError>)
    ensures !HasFields(header, DistressFields) ==> r == Failure(ValueError(DistressHeaderMessage))
    ensures HasFields(header, DistressFields) && KeptDistresses(rows) == [] ==>
              r == Failure(ValueError(EmptyDistressMessage))
    ensures HasFields(header, DistressFields) && KeptDistresses(rows) != [] ==> r == Success(KeptDistresses(rows))
  {
    var distresses: seq<Distress> := [];
    if !HasFields(header, DistressFields) {
      return Failure(ValueError(DistressHeaderMessage));
    }
    for i := 0 to |rows|
      invariant distresses == KeptDistresses(rows[..i])
    {
      var row := rows[i];
      assert rows[..i + 1][..i] == rows[..i];
      if !HasId(row.id) {
        continue;
      }
      distresses := distresses + [Distress(Strip(row.id.value), row.locationM, row.deduction, row.costLocal)];
    }
    assert rows[..|rows|] == rows;
    if distresses == [] {
      return Failure(ValueError(EmptyDistressMessage));
    }
    return Success(distresses);
  }

  /** `DataParser.parse_segments`. */
  method ParseSegments(header: seq<string>, rows: seq<SegmentRow>) returns (r: Result<seq<Segment>, ParseError>)
    ensures !HasFields(header, SegmentFields) ==> r == Failure(ValueError(SegmentHeaderMessage))
    ensures HasFields(header, SegmentFields) && KeptSegments(rows) == [] ==>
              r == Failure(ValueError(EmptySegmentMessage))
    ensures HasFields(header, SegmentFields) && KeptSegments(rows) != [] ==> r == Success(KeptSegments(rows))
    ensures r.Success? ==> |r.value| > 0 && forall k :: 0 <= k < |r.value| ==> r.value[k].startM <= r.value[k].endM
  {
    var segments: seq<Segment> := [];
    if !HasFields(header, SegmentFields) {
      return Failure(ValueError(SegmentHeaderMessage));
    }
    for i := 0 to |rows|
      invariant segments == KeptSegments(rows[..i])
    {
      var row := rows[i];
      assert rows[..i + 1][..i] == rows[..i];
      if !HasId(row.id) {
        continue;
      }
      var start := row.startM;
      var end := row.endM;
      if end < start {
        start, end := end, start;
      }
      segments := segments + [Segment(Strip(row.id.value), start, end, row.costResurfacing)];
    }
    assert rows[..|rows|] == rows;
    if segments == [] {
      return Failure(ValueError(EmptySegmentMessage));
    }
    return Success(segments);
  }
}

=== FILE: evaluation.dfy ===
/**
  What `compute_fitness` and `decode_solution` compute, stated as functions of the catalogue
  and the chromosome. A chromosome holds one gene per segment followed by one gene per
  distress; a gene selects its action exactly when it equals 1.
*/
module Evaluation {
  import opened Road

  function Max(a: real, b: real): real { if a >= b then a else b }
  function Min(a: real, b: real): real { if a <= b then a else b }

  // ---------------------------------------------------------------------------------------
  // Spatial overlap
  // ---------------------------------------------------------------------------------------

  /** `segments_overlap`: the later start lies strictly before the earlier end. */
  function SegmentsOverlap(a: Segment, b: Segment): (r: bool)
    ensures r <==> a.startM < a.endM && b.startM < b.endM && a.startM < b.endM && b.startM < a.endM
  {
    Max(a.startM, b.startM) < Min(a.endM, b.endM)
  }

  predicate StrictlyInside(s: Segment, x: real) {
    s.startM < x < s.endM
  }

  /** Two segments overlap exactly when some point lies strictly inside both, so segments
      that only touch at an end point never overlap. */
  lemma OverlapIffSharedInterior(a: Segment, b: Segment)
    ensures SegmentsOverlap(a, b) <==> exists x: real :: StrictlyInside(a, x) && StrictlyInside(b, x)
  {
    if SegmentsOverlap(a, b) {
      var x := (Max(a.startM, b.startM) + Min(a.endM, b.endM)) / 2.0;
      assert StrictlyInside(a, x) && StrictlyInside(b, x);
    }
  }

  // ---------------------------------------------------------------------------------------
  // Decoding the segment part of a chromosome
  // ---------------------------------------------------------------------------------------

  /** `chosen_seg_idx`: the positions whose gene is 1, in increasing order. */
  function ChosenIndices(bits: seq<int>): (idx: seq<nat>)
    ensures forall k :: 0 <= k < |idx| ==> idx[k] < |bits| && bits[idx[k]] == 1
    ensures forall i :: 0 <= i < |bits| && bits[i] == 1 ==> i in idx
    ensures forall k, l :: 0 <= k < l < |idx| ==> idx[k] < idx[l]
    decreases |bits|
  {
    if bits == [] then []
    else
      var rest := ChosenIndices(bits[..|bits| - 1]);
      if bits[|bits| - 1] == 1 then rest + [|bits| - 1] else rest
  }

  predicate ValidIndices(segs: seq<Segment>, idx: seq<nat>) {
    forall k :: 0 <= k < |idx| ==> idx[k] < |segs|
  }

  /** A segment covers a location lying in its closed interval. */
  predicate SegmentCovers(s: Segment, loc: real) {
    s.startM <= loc <= s.endM
  }

  /** Some chosen segment covers the location. */
  predicate Covered(segs: seq<Segment>, segBits: seq<int>, loc: real)
    requires |segBits| <= |segs|
  {
    exists i :: 0 <= i < |segBits| && segBits[i] == 1 && SegmentCovers(segs[i], loc)
  }

  /** Scanning the chosen indices in order decides coverage: a location no listed segment
      covers is not Covered. */
  lemma NotCoveredByChosen(segs: seq<Segment>, segBits: seq<int>, chosen: seq<nat>, loc: real)
    requires |segBits| <= |segs| && chosen == ChosenIndices(segBits)
    requires forall k :: 0 <= k < |chosen| ==> !SegmentCovers(segs[chosen[k]], loc)
    ensures !Covered(segs, segBits, loc)
  {
    forall i | 0 <= i < |segBits| && segBits[i] == 1
      ensures !SegmentCovers(segs[i], loc)
    {
      var k :| 0 <= k < |chosen| && chosen[k] == i;
    }
  }

  /** No two chosen segments overlap. */
  predicate OverlapFree(segs: seq<Segment>, segBits: seq<int>)
    requires |segBits| <= |segs|
  {
    forall i, j :: 0 <= i < j < |segBits| && segBits[i] == 1 && segBits[j] == 1 ==>
      !SegmentsOverlap(segs[i], segs[j])
  }

  // ---------------------------------------------------------------------------------------
  // Cost of the chosen segments
  // ---------------------------------------------------------------------------------------

  /** The summed cost of every segment whose gene is 1. */
  function SelectedCost(segs: seq<Segment>, bits: seq<int>): real
    requires |bits| <= |segs|
    decreases |bits|
  {
    if bits == [] then 0.0
    else SelectedCost(segs, bits[..|bits| - 1])
         + (if bits[|bits| - 1] == 1 then segs[|bits| - 1].cost else 0.0)
  }

  /** The summed cost of the segments at the given positions, in that order. */
  function CostOfIndices(segs: seq<Segment>, idx: seq<nat>): real
    requires ValidIndices(segs, idx)
    decreases |idx|
  {
    if idx == [] then 0.0 else CostOfIndices(segs, idx[..|idx| - 1]) + segs[idx[|idx| - 1]].cost
  }

  /** Summing over `chosen_seg_idx` is summing over the genes that are 1. */
  lemma {:induction false} CostOfChosenIndices(segs: seq<Segment>, bits: seq<int>)
    requires |bits| <= |segs|
    ensures CostOfIndices(segs, ChosenIndices(bits)) == SelectedCost(segs, bits)
  {
    if bits != [] {
      var init := bits[..|bits| - 1];
      var rest := ChosenIndices(init);
      CostOfChosenIndices(segs, init);
      if bits[|bits| - 1] == 1 {
        assert (rest + [|bits| - 1])[..|rest|] == rest;
      }
    }
  }

  /** The summed cost of every segment. */
  function TotalSegmentCost(segs: seq<Segment>): real
    decreases |segs|
  {
    if segs == [] then 0.0 else TotalSegmentCost(segs[..|segs| - 1]) + segs[|segs| - 1].cost
  }

  /** With non-negative costs the chosen segments cost between 0 and all the segments of the
      prefix their genes cover: each segment is paid for at most once. */
  lemma {:induction false} SelectedCostBounds(segs: seq<Segment>, bits: seq<int>)
    requires |bits| <= |segs|
    ensures (forall i :: 0 <= i < |bits| ==> segs[i].cost >= 0.0) ==>
              0.0 <= SelectedCost(segs, bits) <= TotalSegmentCost(segs[..|bits|])
    decreases |bits|
  {
    if bits != [] {
      var n := |bits|;
      SelectedCostBounds(segs, bits[..n - 1]);
      assert segs[..n][..n - 1] == segs[..n - 1];
    }
  }

  // ---------------------------------------------------------------------------------------
  // Per-distress cost and benefit
  // ---------------------------------------------------------------------------------------

  /** A distress is repaired when a chosen segment covers it or its own gene is 1. */
  predicate Repaired(segs: seq<Segment>, segBits: seq<int>, d: Distress, bit: int)
    requires |segBits| <= |segs|
  {
    Covered(segs, segBits, d.locationM) || bit == 1
  }

  /** The local-repair cost a distress adds: only when its gene is 1 and no chosen segment
      covers it. */
  function LocalCharge(segs: seq<Segment>, segBits: seq<int>, d: Distress, bit: int): real
    requires |segBits| <= |segs|
  {
    if !Covered(segs, segBits, d.locationM) && bit == 1 then d.costLocal else 0.0
  }

  /** The benefit a distress adds: its deduction, once, when it is repaired. */
  function Gain(segs: seq<Segment>, segBits: seq<int>, d: Distress, bit: int): real
    requires |segBits| <= |segs|
  {
    if Repaired(segs, segBits, d, bit) then d.deduction else 0.0
  }

  function LocalCost(segs: seq<Segment>, segBits: seq<int>, dists: seq<Distress>, locBits: seq<int>): real
    requires |segBits| <= |segs| && |locBits| == |dists|
    decreases |dists|
  {
    if dists == [] then 0.0
    else LocalCost(segs, segBits, dists[..|dists| - 1], locBits[..|dists| - 1])
         + LocalCharge(segs, segBits, dists[|dists| - 1], locBits[|dists| - 1])
  }

  function Benefit(segs: seq<Segment>, segBits: seq<int>, dists: seq<Distress>, locBits: seq<int>): real
    requires |segBits| <= |segs| && |locBits| == |dists|
    decreases |dists|
  {
    if dists == [] then 0.0
    else Benefit(segs, segBits, dists[..|dists| - 1], locBits[..|dists| - 1])
         + Gain(segs, segBits, dists[|dists| - 1], locBits[|dists| - 1])
  }

  /** One more distress adds its own local charge and gain to the running totals. */
  lemma PrefixStep(segs: seq<Segment>, segBits: seq<int>, dists: seq<Distress>, locBits: seq<int>, n: nat)
    requires |segBits| <= |segs| && |locBits| == |dists| && n < |dists|
    ensures LocalCost(segs, segBits, dists[..n + 1], locBits[..n + 1])
            == LocalCost(segs, segBits, dists[..n], locBits[..n]) + LocalCharge(segs, segBits, dists[n], locBits[n])
    ensures Benefit(segs, segBits, dists[..n + 1], locBits[..n + 1])
            == Benefit(segs, segBits, dists[..n], locBits[..n]) + Gain(segs, segBits, dists[n], locBits[n])
  {
    assert dists[..n + 1][..n] == dists[..n];
    assert locBits[..n + 1][..n] == locBits[..n];
  }

  function TotalDeduction(dists: seq<Distress>): real
    decreases |dists|
  {
    if dists == [] then 0.0 else TotalDeduction(dists[..|dists| - 1]) + dists[|dists| - 1].deduction
  }

  function TotalLocalCost(dists: seq<Distress>): real
    decreases |dists|
  {
    if dists == [] then 0.0 else TotalLocalCost(dists[..|dists| - 1]) + dists[|dists| - 1].costLocal
  }

  /** With non-negative local costs the local-repair cost lies between 0 and the sum of all
      local costs: each distress is paid for at most once. */
  lemma {:induction false} LocalCostBounds(segs: seq<Segment>, segBits: seq<int>, dists: seq<Distress>, locBits: seq<int>)
    requires |segBits| <= |segs| && |locBits| == |dists|
    ensures (forall j :: 0 <= j < |dists| ==> dists[j].costLocal >= 0.0) ==>
              0.0 <= LocalCost(segs, segBits, dists, locBits) <= TotalLocalCost(dists)
  {
    if dists != [] {
      LocalCostBounds(segs, segBits, dists[..|dists| - 1], locBits[..|dists| - 1]);
    }
  }

  /** With non-negative deductions the benefit lies between 0 and the sum of all deductions:
      each distress contributes at most once. */
  lemma {:induction false} BenefitBounds(segs: seq<Segment>, segBits: seq<int>, dists: seq<Distress>, locBits: seq<int>)
    requires |segBits| <= |segs| && |locBits| == |dists|
    ensures (forall j :: 0 <= j < |dists| ==> dists[j].deduction >= 0.0) ==>
              0.0 <= Benefit(segs, segBits, dists, locBits) <= TotalDeduction(dists)
  {
    if dists != [] {
      BenefitBounds(segs, segBits, dists[..|dists| - 1], locBits[..|dists| - 1]);
    }
  }

  /** A distress covered by a chosen segment adds neither local cost nor extra benefit
      through its own gene: setting that gene to anything leaves both totals unchanged. */
  lemma {:induction false} CoveredGeneIrrelevant(segs: seq<Segment>, segBits: seq<int>,
                                                  dists: seq<Distress>, locBits: seq<int>, j: nat, v: int)
    requires |segBits| <= |segs| && |locBits| == |dists|
    requires j < |dists| && Covered(segs, segBits, dists[j].locationM)
    ensures LocalCost(segs, segBits, dists, locBits[j := v]) == LocalCost(segs, segBits, dists, locBits)
    ensures Benefit(segs, segBits, dists, locBits[j := v]) == Benefit(segs, segBits, dists, locBits)
  {
    var n := |dists|;
    var changed := locBits[j := v];
    if j == n - 1 {
      assert changed[..n - 1] == locBits[..n - 1];
    } else {
      assert changed[..n - 1] == locBits[..n - 1][j := v];
      CoveredGeneIrrelevant(segs, segBits, dists[..n - 1], locBits[..n - 1], j, v);
    }
  }

  // ---------------------------------------------------------------------------------------
  // Overlap count, in the order of the nested loops of `compute_fitness`
  // ---------------------------------------------------------------------------------------

  /** Overlapping pairs (idx[i], idx[l]) with i < l < j. */
  function RowOverlaps(segs: seq<Segment>, idx: seq<nat>, i: nat, j: nat): (n: nat)
    requires ValidIndices(segs, idx) && i < |idx| && j <= |idx|
    ensures j > i ==> n <= j - i - 1
    decreases j
  {
    if j <= i + 1 then 0
    else RowOverlaps(segs, idx, i, j - 1) + (if SegmentsOverlap(segs[idx[i]], segs[idx[j - 1]]) then 1 else 0)
  }

  /** Overlapping pairs whose first member lies among the first m positions; there are at
      most as many as there are such pairs, (|idx| - 1) + ... + (|idx| - m). */
  function OverlapRows(segs: seq<Segment>, idx: seq<nat>, m: nat): (n: nat)
    requires ValidIndices(segs, idx) && m <= |idx|
    ensures 2 * n <= m * (2 * |idx| - m - 1)
    decreases m
  {
    if m == 0 then 0
    else
      var before, row := OverlapRows(segs, idx, m - 1), RowOverlaps(segs, idx, m - 1, |idx|);
      assert 2 * (before + row) <= (m - 1) * (2 * |idx| - m) + 2 * (|idx| - m);
      assert (m - 1) * (2 * |idx| - m) + 2 * (|idx| - m) == m * (2 * |idx| - m - 1);
      before + row
  }

  lemma {:induction false} RowOverlapsZero(segs: seq<Segment>, idx: seq<nat>, i: nat, j: nat)
    requires ValidIndices(segs, idx) && i < |idx| && j <= |idx|
    ensures RowOverlaps(segs, idx, i, j) == 0 <==>
            forall l :: i < l < j ==> !SegmentsOverlap(segs[idx[i]], segs[idx[l]])
    decreases j
  {
    if j > i + 1 {
      RowOverlapsZero(segs, idx, i, j - 1);
    }
  }

  lemma {:induction false} OverlapRowsZero(segs: seq<Segment>, idx: seq<nat>, m: nat)
    requires ValidIndices(segs, idx) && m <= |idx|
    ensures OverlapRows(segs, idx, m) == 0 <==>
            forall k, l :: 0 <= k < m && k < l < |idx| ==> !SegmentsOverlap(segs[idx[k]], segs[idx[l]])
    decreases m
  {
    if m > 0 {
      OverlapRowsZero(segs, idx, m - 1);
      RowOverlapsZero(segs, idx, m - 1, |idx|);
    }
  }

  // ---------------------------------------------------------------------------------------
  // The chromosome-level totals returned by `compute_fitness`
  // ---------------------------------------------------------------------------------------

  function SegBits(segs: seq<Segment>, c: seq<int>): seq<int>
    requires |c| >= |segs|
  {
    c[..|segs|]
  }

  function LocBits(segs: seq<Segment>, c: seq<int>): seq<int>
    requires |c| >= |segs|
  {
    c[|segs|..]
  }

  /** `total_cost`: chosen segment costs plus the local costs of uncovered distresses whose
      gene is 1. With non-negative costs it lies between 0 and the cost of everything. */
  function TotalCost(segs: seq<Segment>, dists: seq<Distress>, c: seq<int>): (cost: real)
    requires |c| == |segs| + |dists|
    ensures (forall i :: 0 <= i < |segs| ==> segs[i].cost >= 0.0)
            && (forall j :: 0 <= j < |dists| ==> dists[j].costLocal >= 0.0)
            ==> 0.0 <= cost <= TotalSegmentCost(segs) + TotalLocalCost(dists)
  {
    var segBits, locBits := SegBits(segs, c), LocBits(segs, c);
    SelectedCostBounds(segs, segBits);
    LocalCostBounds(segs, segBits, dists, locBits);
    assert segs[..|segBits|] == segs;
    SelectedCost(segs, segBits) + LocalCost(segs, segBits, dists, locBits)
  }

  /** `total_benefit`: the deductions of all repaired distresses. With non-negative deductions
      it lies between 0 and the sum of all deductions. */
  function TotalBenefit(segs: seq<Segment>, dists: seq<Distress>, c: seq<int>): (benefit: real)
    requires |c| == |segs| + |dists|
    ensures (forall j :: 0 <= j < |dists| ==> dists[j].deduction >= 0.0) ==>
              0.0 <= benefit <= TotalDeduction(dists)
  {
    BenefitBounds(segs, SegBits(segs, c), dists, LocBits(segs, c));
    Benefit(segs, SegBits(segs, c), dists, LocBits(segs, c))
  }

  /** `overlap_count`: unordered pairs of chosen segments that overlap; at most the number of
      such pairs. */
  function OverlapCount(segs: seq<Segment>, c: seq<int>): (n: nat)
    requires |c| >= |segs|
    ensures var chosen := |ChosenIndices(SegBits(segs, c))|; 2 * n <= chosen * (chosen - 1)
  {
    var idx := ChosenIndices(SegBits(segs, c));
    OverlapRows(segs, idx, |idx|)
  }

  /** `fitness`: benefit minus the budget-overshoot and overlap penalties. With non-negative
      weights it never exceeds the benefit. */
  function Fitness(segs: seq<Segment>, dists: seq<Distress>, budget: real,
                   lambdaBudget: real, lambdaOverlap: real, c: seq<int>): (f: real)
    requires |c| == |segs| + |dists|
    ensures lambdaBudget >= 0.0 && lambdaOverlap >= 0.0 ==> f <= TotalBenefit(segs, dists, c)
  {
    TotalBenefit(segs, dists, c)
      - lambdaBudget * Max(0.0, TotalCost(segs, dists, c) - budget)
      - lambdaOverlap * (OverlapCount(segs, c) as real)
  }

  /** The overlap count is zero exactly when no two chosen segments overlap. */
  lemma OverlapCountZeroIff(segs: seq<Segment>, c: seq<int>)
    requires |c| >= |segs|
    ensures OverlapCount(segs, c) == 0 <==> OverlapFree(segs, SegBits(segs, c))
  {
    var bits := SegBits(segs, c);
    var idx := ChosenIndices(bits);
    OverlapRowsZero(segs, idx, |idx|);
    if OverlapCount(segs, c) == 0 {
      forall i, j | 0 <= i < j < |bits| && bits[i] == 1 && bits[j] == 1
        ensures !SegmentsOverlap(segs[i], segs[j])
      {
        var k :| 0 <= k < |idx| && idx[k] == i;
        var l :| 0 <= l < |idx| && idx[l] == j;
      }
    }
  }

  /** Within budget and without overlaps no penalty applies: the fitness is the benefit. */
  lemma FeasibleFitnessIsBenefit(segs: seq<Segment>, dists: seq<Distress>, budget: real,
                                 lambdaBudget: real, lambdaOverlap: real, c: seq<int>)
    requires |c| == |segs| + |dists|
    requires TotalCost(segs, dists, c) <= budget && OverlapFree(segs, SegBits(segs, c))
    ensures Fitness(segs, dists, budget, lambdaBudget, lambdaOverlap, c) == TotalBenefit(segs, dists, c)
  {
    OverlapCountZeroIff(segs, c);
  }

  /** Setting the gene of a covered distress changes neither cost nor benefit nor fitness. */
  lemma CoveredDistressGeneIrrelevant(segs: seq<Segment>, dists: seq<Distress>, budget: real,
                                      lambdaBudget: real, lambdaOverlap: real, c: seq<int>, j: nat, v: int)
    requires |c| == |segs| + |dists| && j < |dists|
    requires Covered(segs, SegBits(segs, c), dists[j].locationM)
    ensures TotalCost(segs, dists, c[|segs| + j := v]) == TotalCost(segs, dists, c)
    ensures TotalBenefit(segs, dists, c[|segs| + j := v]) == TotalBenefit(segs, dists, c)
    ensures Fitness(segs, dists, budget, lambdaBudget, lambdaOverlap, c[|segs| + j := v])
            == Fitness(segs, dists, budget, lambdaBudget, lambdaOverlap, c)
  {
    var c' := c[|segs| + j := v];
    var segBits, locBits := SegBits(segs, c), LocBits(segs, c);
    assert SegBits(segs, c') == segBits;
    assert LocBits(segs, c') == locBits[j := v];
    CoveredGeneIrrelevant(segs, segBits, dists, locBits, j, v);
    assert TotalCost(segs, dists, c') == TotalCost(segs, dists, c);
    assert TotalBenefit(segs, dists, c') == TotalBenefit(segs, dists, c);
    assert OverlapCount(segs, c') == OverlapCount(segs, c);
    FitnessOfTotals(segs, dists, budget, lambdaBudget, lambdaOverlap, c', c);
  }

  /** The fitness depends on a chromosome only through its cost, benefit and overlap count. */
  lemma FitnessOfTotals(segs: seq<Segment>, dists: seq<Distress>, budget: real,
                        lambdaBudget: real, lambdaOverlap: real, c: seq<int>, d: seq<int>)
    requires |c| == |segs| + |dists| && |d| == |segs| + |dists|
    requires TotalCost(segs, dists, c) == TotalCost(segs, dists, d)
    requires TotalBenefit(segs, dists, c) == TotalBenefit(segs, dists, d)
    requires OverlapCount(segs, c) == OverlapCount(segs, d)
    ensures Fitness(segs, dists, budget, lambdaBudget, lambdaOverlap, c)
            == Fitness(segs, dists, budget, lambdaBudget, lambdaOverlap, d)
  {
  }

  // ---------------------------------------------------------------------------------------
  // The report built by `decode_solution`
  // ---------------------------------------------------------------------------------------

  datatype RepairMethod = Resurfacing | LocalRepair | NotRepaired

  /** How the decoder labels a distress: segment coverage takes precedence over the gene. */
  function Classify(segs: seq<Segment>, segBits: seq<int>, d: Distress, bit: int): (m: RepairMethod)
    requires |segBits| <= |segs|
    ensures m == Resurfacing <==> Covered(segs, segBits, d.locationM)
    ensures m == LocalRepair <==> !Covered(segs, segBits, d.locationM) && bit == 1
    ensures m != NotRepaired <==> Repaired(segs, segBits, d, bit)
  {
    if Covered(segs, segBits, d.locationM) then Resurfacing
    else if bit == 1 then LocalRepair
    else NotRepaired
  }

  /** One entry of `chosen_segments`. */
  datatype ChosenSegment = ChosenSegment(id: string, startM: real, endM: real, length: real, cost: real)

  /** One entry of `distress_status`. */
  datatype DistressStatus = DistressStatus(id: string, locationM: real, deduction: real, costLocal: real,
                                           repaired: bool, repairMethod: RepairMethod)

  /** The dictionary `decode_solution` returns (before rounding). */
  datatype Solution = Solution(bestFitness: real, totalCost: real, totalBenefit: real, budget: real,
                               chosenSegments: seq<ChosenSegment>, distressStatus: seq<DistressStatus>)

  function ChosenSegmentOf(s: Segment): ChosenSegment {
    ChosenSegment(s.id, s.startM, s.endM, s.endM - s.startM, s.cost)
  }

  /** The deductions of the distresses a report marks as repaired. */
  function RepairedDeduction(st: seq<DistressStatus>): real
    decreases |st|
  {
    if st == [] then 0.0
    else RepairedDeduction(st[..|st| - 1]) + (if st[|st| - 1].repaired then st[|st| - 1].deduction else 0.0)
  }

  /** The local costs of the distresses a report marks as locally repaired. */
  function LocalRepairCost(st: seq<DistressStatus>): real
    decreases |st|
  {
    if st == [] then 0.0
    else LocalRepairCost(st[..|st| - 1]) + (if st[|st| - 1].repairMethod == LocalRepair then st[|st| - 1].costLocal else 0.0)
  }

  /** The costs of the segments a report lists. */
  function ResurfacingCost(cs: seq<ChosenSegment>): real
    decreases |cs|
  {
    if cs == [] then 0.0 else ResurfacingCost(cs[..|cs| - 1]) + cs[|cs| - 1].cost
  }

  /** The status record `decode_solution` emits for a distress. */
  function StatusOf(segs: seq<Segment>, segBits: seq<int>, d: Distress, bit: int): DistressStatus
    requires |segBits| <= |segs|
  {
    var m := Classify(segs, segBits, d, bit);
    DistressStatus(d.id, d.locationM, d.deduction, d.costLocal, m != NotRepaired, m)
  }

  /** `report` is the decoding of chromosome `c` with the given fitness, cost and benefit: it
      lists the chosen segments in catalogue order and labels every distress once. */
  ghost predicate IsReportOf(segs: seq<Segment>, dists: seq<Distress>, budget: real, c: seq<int>,
                             fitness: real, cost: real, benefit: real, report: Solution)
    requires |c| == |segs| + |dists|
  {
    var segBits := SegBits(segs, c);
    var locBits := LocBits(segs, c);
    var idx := ChosenIndices(segBits);
    && report.bestFitness == fitness && report.totalCost == cost
    && report.totalBenefit == benefit && report.budget == budget
    && |report.chosenSegments| == |idx|
    && (forall k :: 0 <= k < |idx| ==> report.chosenSegments[k] == ChosenSegmentOf(segs[idx[k]]))
    && |report.distressStatus| == |dists|
    && (forall j :: 0 <= j < |dists| ==> report.distressStatus[j] == StatusOf(segs, segBits, dists[j], locBits[j]))
  }

  lemma {:induction false} StatusTotals(segs: seq<Segment>, segBits: seq<int>, dists: seq<Distress>,
                                        locBits: seq<int>, st: seq<DistressStatus>)
    requires |segBits| <= |segs| && |locBits| == |dists| && |st| == |dists|
    requires forall j :: 0 <= j < |dists| ==> st[j] == StatusOf(segs, segBits, dists[j], locBits[j])
    ensures RepairedDeduction(st) == Benefit(segs, segBits, dists, locBits)
    ensures LocalRepairCost(st) == LocalCost(segs, segBits, dists, locBits)
    decreases |dists|
  {
    if dists != [] {
      var n := |dists|;
      StatusTotals(segs, segBits, dists[..n - 1], locBits[..n - 1], st[..n - 1]);
    }
  }

  lemma {:induction false} ChosenSegmentsCost(segs: seq<Segment>, idx: seq<nat>, cs: seq<ChosenSegment>)
    requires ValidIndices(segs, idx) && |cs| == |idx|
    requires forall k :: 0 <= k < |idx| ==> cs[k] == ChosenSegmentOf(segs[idx[k]])
    ensures ResurfacingCost(cs) == CostOfIndices(segs, idx)
    decreases |idx|
  {
    if idx != [] {
      ChosenSegmentsCost(segs, idx[..|idx| - 1], cs[..|cs| - 1]);
    }
  }

  /** The decoder and the evaluator agree: in the report of a chromosome, the deductions of
      the distresses marked repaired sum to its benefit, and the listed segment costs plus the
      local costs of the distresses marked "Local repair" sum to its cost. */
  lemma ReportAgreesWithFitness(segs: seq<Segment>, dists: seq<Distress>, budget: real,
                                lambdaBudget: real, lambdaOverlap: real, c: seq<int>, report: Solution)
    requires |c| == |segs| + |dists|
    requires IsReportOf(segs, dists, budget, c, Fitness(segs, dists, budget, lambdaBudget, lambdaOverlap, c),
                        TotalCost(segs, dists, c), TotalBenefit(segs, dists, c), report)
    ensures RepairedDeduction(report.distressStatus) == report.totalBenefit
    ensures ResurfacingCost(report.chosenSegments) + LocalRepairCost(report.distressStatus) == report.totalCost
  {
    var segBits := SegBits(segs, c);
    StatusTotals(segs, segBits, dists, LocBits(segs, c), report.distressStatus);
    ChosenSegmentsCost(segs, ChosenIndices(segBits), report.chosenSegments);
    CostOfChosenIndices(segs, segBits);
  }
}

=== FILE: genetic_algorithm.dfy ===
/**
  The optimiser object: its parameters, the best-ever individual it tracks, the fitness
  evaluator, the variation and selection operators, the generational loop and the decoder.
  Every random draw of the Python program is an explicit argument here.
*/
module Genetic {
  import opened Wrappers
  import opened Road
  import opened Evaluation

  /** Individuals drawn per tournament (the default `k=3`, the only value `run` uses). */
  const TournamentSize: nat := 3

  /** Every gene is 0 or 1. */
  predicate IsBinary(c: seq<int>) {
    forall i :: 0 <= i < |c| ==> c[i] == 0 || c[i] == 1
  }

  /** The genes after a mutation pass with per-gene draws `draws` in [0, 1): a gene changes
      exactly when its draw is below the rate, and then it is flipped. */
  function Mutated(c: seq<int>, draws: seq<real>, rate: real): (r: seq<int>)
    requires |draws| == |c|
    ensures |r| == |c|
    ensures forall i :: 0 <= i < |c| ==> (r[i] != c[i] <==> draws[i] < rate)
    ensures forall i :: 0 <= i < |c| && r[i] != c[i] ==> r[i] == 1 - c[i]
    ensures IsBinary(c) ==> IsBinary(r)
  {
    seq(|c|, i requires 0 <= i < |c| => if draws[i] < rate then 1 - c[i] else c[i])
  }

  /** The genes of `a` before the cut point followed by those of `b` from it on. */
  function Splice(a: seq<int>, b: seq<int>, cut: nat): (r: seq<int>)
    requires |a| == |b| && cut <= |a|
    ensures |r| == |a|
    ensures forall i :: 0 <= i < |a| ==> r[i] == if i < cut then a[i] else b[i]
  {
    a[..cut] + b[cut..]
  }

  /** The draws consumed while breeding one pair of children: the sampled indices of the two
      tournaments, the crossover draw and cut point, and one mutation draw per gene of each
      child. */
  datatype PairDraws = PairDraws(picks1: seq<int>, picks2: seq<int>, crossDraw: real, cutPoint: int,
                                 flips1: seq<real>, flips2: seq<real>)

  /** Position w of `picks` wins the tournament: its fitness is at least that of every sampled
      individual and strictly above that of every one sampled before it. */
  ghost predicate WinsAmong(fitnesses: seq<real>, picks: seq<int>, w: nat, n: nat)
    requires n <= |picks| && forall t :: 0 <= t < |picks| ==> 0 <= picks[t] < |fitnesses|
  {
    && w < n
    && (forall t :: 0 <= t < n ==> fitnesses[picks[t]] <= fitnesses[picks[w]])
    && (forall t :: 0 <= t < w ==> fitnesses[picks[t]] < fitnesses[picks[w]])
  }

  /** The position among the first n of `picks` that wins the tournament. */
  function BestPick(fitnesses: seq<real>, picks: seq<int>, n: nat): (w: nat)
    requires 1 <= n <= |picks| && forall t :: 0 <= t < |picks| ==> 0 <= picks[t] < |fitnesses|
    ensures WinsAmong(fitnesses, picks, w, n)
  {
    if n == 1 then 0
    else
      var w := BestPick(fitnesses, picks, n - 1);
      if fitnesses[picks[n - 1]] > fitnesses[picks[w]] then n - 1 else w
  }

  /** The tournament has one winner: ties go to the earliest sampled position. */
  lemma WinnerUnique(fitnesses: seq<real>, picks: seq<int>, w1: nat, w2: nat, n: nat)
    requires n <= |picks| && forall t :: 0 <= t < |picks| ==> 0 <= picks[t] < |fitnesses|
    requires WinsAmong(fitnesses, picks, w1, n) && WinsAmong(fitnesses, picks, w2, n)
    ensures w1 == w2
  {
    var f1, f2 := fitnesses[picks[w1]], fitnesses[picks[w2]];
  }

  /** Both children of every pair, in order: pair t supplies members 2t and 2t + 1. */
  function Interleave(pairs: seq<(seq<int>, seq<int>)>): (members: seq<seq<int>>)
    ensures |members| == 2 * |pairs|
    decreases |pairs|
  {
    if pairs == [] then []
    else
      var last := pairs[|pairs| - 1];
      Interleave(pairs[..|pairs| - 1]) + [last.0, last.1]
  }

  /** Members of Interleave(pairs) have the genome length and the binary genes that both
      children of every pair have. */
  lemma {:induction false} InterleaveKeeps(pairs: seq<(seq<int>, seq<int>)>, len: nat)
    ensures (forall t :: 0 <= t < |pairs| ==> |pairs[t].0| == len && |pairs[t].1| == len) ==>
              forall i :: 0 <= i < |Interleave(pairs)| ==> |Interleave(pairs)[i]| == len
    ensures (forall t :: 0 <= t < |pairs| ==> IsBinary(pairs[t].0) && IsBinary(pairs[t].1)) ==>
              forall i :: 0 <= i < |Interleave(pairs)| ==> IsBinary(Interleave(pairs)[i])
    decreases |pairs|
  {
    if pairs != [] {
      var n := |pairs|;
      var front := pairs[..n - 1];
      assert forall t :: 0 <= t < n - 1 ==> front[t] == pairs[t];
      InterleaveKeeps(front, len);
      assert Interleave(pairs) == Interleave(front) + [pairs[n - 1].0, pairs[n - 1].1];
    }
  }

  lemma {:induction false} InterleaveMember(pairs: seq<(seq<int>, seq<int>)>, t: nat)
    requires t < |pairs|
    ensures Interleave(pairs)[2 * t] == pairs[t].0 && Interleave(pairs)[2 * t + 1] == pairs[t].1
    decreases |pairs|
  {
    if t < |pairs| - 1 {
      InterleaveMember(pairs[..|pairs| - 1], t);
    }
  }

  class GeneticAlgorithm {
    const segments: seq<Segment>
    const distresses: seq<Distress>
    const budget: real
    const popSize: nat
    const generations: nat
    const crossoverRate: real
    const mutationRate: real
    const lambdaBudget: real
    const lambdaOverlap: real

    /** One gene per segment followed by one gene per distress. */
    const genomeLength: nat := |segments| + |distresses|

    /** None until the first evaluation; it then stands in for `best_fitness = -inf`. */
    var bestChromosome: Option<seq<int>>
    var bestFitness: real
    var bestCost: real
    var bestBenefit: real

    /** The recorded best fitness, cost and benefit are those of the recorded chromosome. */
    ghost predicate Valid()
      reads this
    {
      bestChromosome.Some? ==>
        && |bestChromosome.value| == genomeLength
        && bestFitness == FitnessOf(bestChromosome.value)
        && bestCost == CostOf(bestChromosome.value)
        && bestBenefit == BenefitOf(bestChromosome.value)
    }

    function FitnessOf(c: seq<int>): real
      requires |c| == genomeLength
    {
      Fitness(segments, distresses, budget, lambdaBudget, lambdaOverlap, c)
    }

    function CostOf(c: seq<int>): real
      requires |c| == genomeLength
    {
      TotalCost(segments, distresses, c)
    }

    function BenefitOf(c: seq<int>): real
      requires |c| == genomeLength
    {
      TotalBenefit(segments, distresses, c)
    }

    /** `__init__`, with the same defaults for the tuning parameters. */
    constructor (segments: seq<Segment>, distresses: seq<Distress>, budget: real,
                 popSize: nat := 50, generations: nat := 100,
                 crossoverRate: real := 0.8, mutationRate: real := 0.05,
                 lambdaBudget: real := 0.5, lambdaOverlap: real := 1000.0)
      ensures Valid()
      ensures this.segments == segments && this.distresses == distresses && this.budget == budget
      ensures this.popSize == popSize && this.generations == generations
      ensures this.crossoverRate == crossoverRate && this.mutationRate == mutationRate
      ensures this.lambdaBudget == lambdaBudget && this.lambdaOverlap == lambdaOverlap
      ensures bestChromosome == None && bestCost == 0.0 && bestBenefit == 0.0
    {
      this.segments := segments;
      this.distresses := distresses;
      this.budget := budget;
      this.popSize := popSize;
      this.generations := generations;
      this.crossoverRate := crossoverRate;
      this.mutationRate := mutationRate;
      this.lambdaBudget := lambdaBudget;
      this.lambdaOverlap := lambdaOverlap;
      bestChromosome := None;
      bestFitness := 0.0;
      bestCost := 0.0;
      bestBenefit := 0.0;
    }

    /** The first loop of `compute_fitness`: the summed cost of the chosen segments. */
    method ChosenCost(chosen: seq<nat>) returns (total: real)
      requires ValidIndices(segments, chosen)
      ensures total == CostOfIndices(segments, chosen)
    {
      total := 0.0;
      for k := 0 to |chosen|
        invariant total == CostOfIndices(segments, chosen[..k])
      {
        assert chosen[..k + 1][..k] == chosen[..k];
        total := total + segments[chosen[k]].cost;
      }
      assert chosen[..|chosen|] == chosen;
    }

    /** The nested loops of `compute_fitness`: pairs i < j of chosen segments that overlap. */
    method CountOverlaps(chosen: seq<nat>) returns (overlapCount: nat)
      requires ValidIndices(segments, chosen)
      ensures overlapCount == OverlapRows(segments, chosen, |chosen|)
    {
      overlapCount := 0;
      for i := 0 to |chosen|
        invariant overlapCount == OverlapRows(segments, chosen, i)
      {
        for j := i + 1 to |chosen|
          invariant overlapCount == OverlapRows(segments, chosen, i) + RowOverlaps(segments, chosen, i, j)
        {
          var s1 := segments[chosen[i]];
          var s2 := segments[chosen[j]];
          if SegmentsOverlap(s1, s2) {
            overlapCount := overlapCount + 1;
          }
        }
      }
    }

    /** The coverage scan of `compute_fitness`: does some chosen segment contain `loc`? */
    method CoveredByChosen(segBits: seq<int>, chosen: seq<nat>, loc: real) returns (coveredBySeg: bool)
      requires |segBits| <= |segments| && chosen == ChosenIndices(segBits)
      ensures coveredBySeg <==> Covered(segments, segBits, loc)
    {
      coveredBySeg := false;
      for t := 0 to |chosen|
        invariant !coveredBySeg
        invariant forall u :: 0 <= u < t ==> !SegmentCovers(segments[chosen[u]], loc)
      {
        var s := segments[chosen[t]];
        if s.startM <= loc <= s.endM {
          coveredBySeg := true;
          break;
        }
      }
      if !coveredBySeg {
        NotCoveredByChosen(segments, segBits, chosen, loc);
      }
    }

    /** The distress loop of `compute_fitness`: adds the local costs of uncovered distresses
        whose gene is 1 to `costSoFar`, and sums the deductions of repaired distresses. */
    method AddDistressTerms(segBits: seq<int>, chosen: seq<nat>, locBits: seq<int>, costSoFar: real)
      returns (totalCost: real, totalBenefit: real)
      requires |segBits| <= |segments| && chosen == ChosenIndices(segBits) && |locBits| == |distresses|
      ensures totalCost == costSoFar + LocalCost(segments, segBits, distresses, locBits)
      ensures totalBenefit == Benefit(segments, segBits, distresses, locBits)
    {
      totalCost := costSoFar;
      totalBenefit := 0.0;
      for idx := 0 to |distresses|
        invariant totalCost == costSoFar + LocalCost(segments, segBits, distresses[..idx], locBits[..idx])
        invariant totalBenefit == Benefit(segments, segBits, distresses[..idx], locBits[..idx])
      {
        var d := distresses[idx];
        var loc := d.locationM;
        var coveredBySeg := CoveredByChosen(segBits, chosen, loc);
        PrefixStep(segments, segBits, distresses, locBits, idx);

        var repaired := false;
        if coveredBySeg {
          repaired := true;
        } else {
          if locBits[idx] == 1 {
            repaired := true;
            totalCost := totalCost + d.costLocal;
          }
        }
        if repaired {
          totalBenefit := totalBenefit + d.deduction;
        }
      }
      assert distresses[..|distresses|] == distresses;
      assert locBits[..|distresses|] == locBits;
    }

    /** The totals `compute_fitness` accumulates before applying the penalties. */
    method ComputeTotals(chromosome: seq<int>) returns (totalCost: real, totalBenefit: real, overlapCount: nat)
      requires |chromosome| == genomeLength
      ensures totalCost == CostOf(chromosome)
      ensures totalBenefit == BenefitOf(chromosome)
      ensures overlapCount == OverlapCount(segments, chromosome)
    {
      var nSeg := |segments|;
      var segBits := chromosome[..nSeg];
      var locBits := chromosome[nSeg..];

      var chosen := ChosenIndices(segBits);
      totalCost := ChosenCost(chosen);
      CostOfChosenIndices(segments, segBits);
      overlapCount := CountOverlaps(chosen);
      totalCost, totalBenefit := AddDistressTerms(segBits, chosen, locBits, totalCost);
    }

    /** `compute_fitness`: the fitness, total cost and total benefit of a chromosome. */
    method ComputeFitness(chromosome: seq<int>) returns (fitness: real, totalCost: real, totalBenefit: real)
      requires |chromosome| == genomeLength
      ensures fitness == FitnessOf(chromosome)
      ensures totalCost == CostOf(chromosome)
      ensures totalBenefit == BenefitOf(chromosome)
    {
      var overlapCount;
      totalCost, totalBenefit, overlapCount := ComputeTotals(chromosome);

      var overshoot := Max(0.0, totalCost - budget);
      var penaltyBudget := lambdaBudget * overshoot;
      var penaltyOverlap := lambdaOverlap * (overlapCount as real);
      fitness := totalBenefit - penaltyBudget - penaltyOverlap;
    }

    /** `init_population`: `pop_size` chromosomes of `genome_length` genes, gene g of
        individual p being 1 exactly when the draw `coin(p, g)` is. */
    function InitPopulation(coin: (nat, nat) -> bool): (population: seq<seq<int>>)
      ensures |population| == popSize
      ensures forall p :: 0 <= p < popSize ==> |population[p]| == genomeLength && IsBinary(population[p])
      ensures forall p, g :: 0 <= p < popSize && 0 <= g < genomeLength ==>
                (population[p][g] == 1 <==> coin(p, g))
    {
      seq(popSize, p requires 0 <= p < popSize =>
        seq(genomeLength, g requires 0 <= g < genomeLength => if coin(p, g) then 1 else 0))
    }

    /** `tournament_selection`: a copy of the individual at the earliest sampled position whose
        fitness is the highest among the sampled ones. */
    method TournamentSelection(population: seq<seq<int>>, fitnesses: seq<real>, picks: seq<int>)
      returns (winner: seq<int>)
      requires |picks| >= 1 && |fitnesses| == |population|
      requires forall t :: 0 <= t < |picks| ==> 0 <= picks[t] < |population|
      ensures winner == population[picks[BestPick(fitnesses, picks, |picks|)]]
    {
      var best: Option<seq<int>> := None;
      var bestFit := 0.0;
      for t := 0 to |picks|
        invariant best.None? <==> t == 0
        invariant best.Some? ==> var w := BestPick(fitnesses, picks, t);
                                 best.value == population[picks[w]] && bestFit == fitnesses[picks[w]]
      {
        var idx := picks[t];
        if best.None? || fitnesses[idx] > bestFit {
          best := Some(population[idx]);
          bestFit := fitnesses[idx];
        }
      }
      winner := best.value;
    }

    /** `one_point_crossover`: when the crossover draw does not exceed the rate, the children
        swap tails at the cut point; otherwise they are copies of the parents. */
    function OnePointCrossover(p1: seq<int>, p2: seq<int>, crossDraw: real, cutPoint: int)
      : (children: (seq<int>, seq<int>))
      requires |p1| == |p2|
      requires crossDraw <= crossoverRate ==> 1 <= cutPoint <= |p1| - 1
      ensures |children.0| == |p1| && |children.1| == |p1|
      ensures crossDraw > crossoverRate ==> children == (p1, p2)
      ensures crossDraw <= crossoverRate ==>
                forall i :: 0 <= i < |p1| ==>
                  && children.0[i] == (if i < cutPoint then p1[i] else p2[i])
                  && children.1[i] == (if i < cutPoint then p2[i] else p1[i])
      ensures forall i :: 0 <= i < |p1| ==>
                || (children.0[i] == p1[i] && children.1[i] == p2[i])
                || (children.0[i] == p2[i] && children.1[i] == p1[i])
      ensures IsBinary(p1) && IsBinary(p2) ==> IsBinary(children.0) && IsBinary(children.1)
    {
      if crossDraw > crossoverRate then (p1, p2)
      else (Splice(p1, p2, cutPoint), Splice(p2, p1, cutPoint))
    }

    /** `mutate`: flips, in place, every gene whose draw is below the mutation rate. */
    method Mutate(chromosome: array<int>, draws: seq<real>)
      requires |draws| == chromosome.Length
      modifies chromosome
      ensures chromosome[..] == Mutated(old(chromosome[..]), draws, mutationRate)
    {
      for i := 0 to chromosome.Length
        invariant forall j :: 0 <= j < i ==>
                    chromosome[j] == (if draws[j] < mutationRate then 1 - old(chromosome[j]) else old(chromosome[j]))
        invariant forall j :: i <= j < chromosome.Length ==> chromosome[j] == old(chromosome[j])
      {
        if draws[i] < mutationRate {
          chromosome[i] := 1 - chromosome[i];
        }
      }
    }

    /** The draws for one pair of children fit the population and the genome. */
    predicate ValidPairDraws(d: PairDraws) {
      && |d.picks1| == TournamentSize && |d.picks2| == TournamentSize
      && (forall t :: 0 <= t < |d.picks1| ==> 0 <= d.picks1[t] < popSize)
      && (forall t :: 0 <= t < |d.picks2| ==> 0 <= d.picks2[t] < popSize)
      && (d.crossDraw <= crossoverRate ==> 1 <= d.cutPoint <= genomeLength - 1)
      && |d.flips1| == genomeLength && |d.flips2| == genomeLength
    }

    /** The first half of a generation in `run`: evaluate every individual and record a new
        best-ever individual whenever one is strictly fitter than the recorded one. When the
        record changes (`improved`), the new best is individual `w`, the first of those with
        the highest fitness; otherwise the record is untouched. */
    method EvaluatePopulation(population: seq<seq<int>>)
      returns (fitnesses: seq<real>, ghost improved: bool, ghost w: nat)
      requires Valid()
      requires forall i :: 0 <= i < |population| ==> |population[i]| == genomeLength
      modifies this
      ensures Valid()
      ensures |fitnesses| == |population|
      ensures forall i :: 0 <= i < |population| ==> fitnesses[i] == FitnessOf(population[i])
      ensures |population| > 0 ==> bestChromosome.Some?
      ensures bestChromosome.Some? ==> forall i :: 0 <= i < |population| ==> fitnesses[i] <= bestFitness
      ensures !improved ==> bestChromosome == old(bestChromosome) && bestFitness == old(bestFitness)
                            && bestCost == old(bestCost) && bestBenefit == old(bestBenefit)
      ensures improved ==> && w < |population| && bestChromosome == Some(population[w])
                           && (old(bestChromosome).None? || old(bestFitness) < bestFitness)
                           && forall k :: 0 <= k < w ==> fitnesses[k] < bestFitness
    {
      fitnesses, improved, w := [], false, 0;
      for i := 0 to |population|
        invariant Valid()
        invariant |fitnesses| == i
        invariant forall k :: 0 <= k < i ==> fitnesses[k] == FitnessOf(population[k])
        invariant i > 0 ==> bestChromosome.Some?
        invariant bestChromosome.Some? ==> forall k :: 0 <= k < i ==> fitnesses[k] <= bestFitness
        invariant !improved ==> bestChromosome == old(bestChromosome) && bestFitness == old(bestFitness)
                                && bestCost == old(bestCost) && bestBenefit == old(bestBenefit)
        invariant improved ==> && w < i && bestChromosome == Some(population[w])
                               && (old(bestChromosome).None? || old(bestFitness) < bestFitness)
                               && forall k :: 0 <= k < w ==> fitnesses[k] < bestFitness
      {
        var chrom := population[i];
        var f, c, b := ComputeFitness(chrom);
        fitnesses := fitnesses + [f];
        if bestChromosome.None? || f > bestFitness {
          bestFitness := f;
          bestChromosome := Some(chrom);
          bestCost := c;
          bestBenefit := b;
          improved, w := true, i;
        }
      }
    }

    /** The fitness of every individual, in order. */
    function FitnessesOf(population: seq<seq<int>>): (fitnesses: seq<real>)
      requires forall i :: 0 <= i < |population| ==> |population[i]| == genomeLength
      ensures |fitnesses| == |population|
    {
      seq(|population|, i requires 0 <= i < |population| => FitnessOf(population[i]))
    }

    /** The two children bred from one draw record: the two tournament winners, crossed over
        and then each mutated with its own draws. */
    function Offspring(population: seq<seq<int>>, fitnesses: seq<real>, d: PairDraws): (children: (seq<int>, seq<int>))
      requires |population| == popSize && |fitnesses| == popSize
      requires forall i :: 0 <= i < popSize ==> |population[i]| == genomeLength
      requires ValidPairDraws(d)
      ensures |children.0| == genomeLength && |children.1| == genomeLength
      ensures (forall i :: 0 <= i < popSize ==> IsBinary(population[i])) ==>
                IsBinary(children.0) && IsBinary(children.1)
    {
      var p1 := population[d.picks1[BestPick(fitnesses, d.picks1, |d.picks1|)]];
      var p2 := population[d.picks2[BestPick(fitnesses, d.picks2, |d.picks2|)]];
      var crossed := OnePointCrossover(p1, p2, d.crossDraw, d.cutPoint);
      (Mutated(crossed.0, d.flips1, mutationRate), Mutated(crossed.1, d.flips2, mutationRate))
    }

    /** The children of every draw record, in order. */
    function OffspringList(population: seq<seq<int>>, fitnesses: seq<real>, draws: seq<PairDraws>)
      : (pairs: seq<(seq<int>, seq<int>)>)
      requires |population| == popSize && |fitnesses| == popSize
      requires forall i :: 0 <= i < popSize ==> |population[i]| == genomeLength
      requires forall t :: 0 <= t < |draws| ==> ValidPairDraws(draws[t])
      ensures |pairs| == |draws|
      ensures forall t :: 0 <= t < |draws| ==> pairs[t] == Offspring(population, fitnesses, draws[t])
      ensures forall t :: 0 <= t < |draws| ==> |pairs[t].0| == genomeLength && |pairs[t].1| == genomeLength
      ensures (forall i :: 0 <= i < popSize ==> IsBinary(population[i])) ==>
                forall t :: 0 <= t < |draws| ==> IsBinary(pairs[t].0) && IsBinary(pairs[t].1)
    {
      seq(|draws|, t requires 0 <= t < |draws| => Offspring(population, fitnesses, draws[t]))
    }

    /** The next generation: the first `pop_size` children, two per draw record in order, so
        that the second child of the last pair is dropped when `pop_size` is odd. */
    function Bred(population: seq<seq<int>>, fitnesses: seq<real>, draws: seq<PairDraws>): (next: seq<seq<int>>)
      requires |population| == popSize && |fitnesses| == popSize
      requires forall i :: 0 <= i < popSize ==> |population[i]| == genomeLength
      requires |draws| >= (popSize + 1) / 2 && forall t :: 0 <= t < |draws| ==> ValidPairDraws(draws[t])
      ensures |next| == popSize && forall i :: 0 <= i < popSize ==> |next[i]| == genomeLength
    {
      var pairs := OffspringList(population, fitnesses, draws);
      InterleaveKeeps(pairs, genomeLength);
      Interleave(pairs)[..popSize]
    }

    /** Breeding from binary chromosomes yields binary chromosomes. */
    lemma BredBinary(population: seq<seq<int>>, fitnesses: seq<real>, draws: seq<PairDraws>)
      requires |population| == popSize && |fitnesses| == popSize
      requires forall i :: 0 <= i < popSize ==> |population[i]| == genomeLength && IsBinary(population[i])
      requires |draws| >= (popSize + 1) / 2 && forall t :: 0 <= t < |draws| ==> ValidPairDraws(draws[t])
      ensures forall i :: 0 <= i < popSize ==> IsBinary(Bred(population, fitnesses, draws)[i])
    {
      var pairs := OffspringList(population, fitnesses, draws);
      InterleaveKeeps(pairs, genomeLength);
    }

    /** Member 2t of the next generation is the first child bred from draw record t, and
        member 2t + 1 its second child, unless that index is past `pop_size`. */
    lemma BredMember(population: seq<seq<int>>, fitnesses: seq<real>, draws: seq<PairDraws>, t: nat)
      requires |population| == popSize && |fitnesses| == popSize
      requires forall i :: 0 <= i < popSize ==> |population[i]| == genomeLength
      requires |draws| >= (popSize + 1) / 2 && forall u :: 0 <= u < |draws| ==> ValidPairDraws(draws[u])
      requires 2 * t < popSize
      ensures Bred(population, fitnesses, draws)[2 * t] == Offspring(population, fitnesses, draws[t]).0
      ensures 2 * t + 1 < popSize ==>
                Bred(population, fitnesses, draws)[2 * t + 1] == Offspring(population, fitnesses, draws[t]).1
    {
      var pairs := OffspringList(population, fitnesses, draws);
      InterleaveMember(pairs, t);
    }

    /** One pass of the breeding loop of `run`: two tournaments, crossover, and mutation of
        both children in place. */
    method BreedPair(population: seq<seq<int>>, fitnesses: seq<real>, d: PairDraws) returns (child1: seq<int>, child2: seq<int>)
      requires |population| == popSize && |fitnesses| == popSize
      requires forall i :: 0 <= i < popSize ==> |population[i]| == genomeLength
      requires ValidPairDraws(d)
      ensures (child1, child2) == Offspring(population, fitnesses, d)
    {
      var p1 := TournamentSelection(population, fitnesses, d.picks1);
      var p2 := TournamentSelection(population, fitnesses, d.picks2);

      var children := OnePointCrossover(p1, p2, d.crossDraw, d.cutPoint);
      var c1 := new int[genomeLength](i requires 0 <= i < genomeLength => children.0[i]);
      var c2 := new int[genomeLength](i requires 0 <= i < genomeLength => children.1[i]);
      assert c1[..] == children.0 && c2[..] == children.1;

      Mutate(c1, d.flips1);
      Mutate(c2, d.flips2);
      child1, child2 := c1[..], c2[..];
    }

    /** One pass of the `while` loop of `run`: breed pair t and append its first child, and its
        second child too while the new population is still short. */
    method BreedStep(population: seq<seq<int>>, fitnesses: seq<real>, draws: seq<PairDraws>,
                     ghost pairs: seq<(seq<int>, seq<int>)>, newPop: seq<seq<int>>, t: nat)
      returns (extended: seq<seq<int>>)
      requires |population| == popSize && |fitnesses| == popSize
      requires forall i :: 0 <= i < popSize ==> |population[i]| == genomeLength
      requires t < |draws| == |pairs| && ValidPairDraws(draws[t])
      requires pairs[t] == Offspring(population, fitnesses, draws[t])
      requires |newPop| == 2 * t < popSize && newPop == Interleave(pairs)[..|newPop|]
      ensures |extended| == if 2 * t + 2 <= popSize then 2 * t + 2 else popSize
      ensures extended == Interleave(pairs)[..|extended|]
    {
      ghost var all := Interleave(pairs);
      var c1, c2 := BreedPair(population, fitnesses, draws[t]);
      InterleaveMember(pairs, t);
      assert all[..2 * t + 1] == all[..2 * t] + [all[2 * t]];
      extended := newPop + [c1];
      if |extended| < popSize {
        assert all[..2 * t + 2] == all[..2 * t + 1] + [all[2 * t + 1]];
        extended := extended + [c2];
      }
    }

    /** The second half of a generation in `run`: breed pairs (two tournaments, crossover,
        mutation of both children) until the new population has `pop_size` members; the
        second child of the last pair is dropped when `pop_size` is odd. */
    method NextGeneration(population: seq<seq<int>>, fitnesses: seq<real>, draws: seq<PairDraws>)
      returns (newPop: seq<seq<int>>)
      requires |population| == popSize && |fitnesses| == popSize
      requires forall i :: 0 <= i < popSize ==> |population[i]| == genomeLength
      requires |draws| >= (popSize + 1) / 2
      requires forall t :: 0 <= t < |draws| ==> ValidPairDraws(draws[t])
      ensures newPop == Bred(population, fitnesses, draws)
    {
      ghost var offspring := OffspringList(population, fitnesses, draws);
      ghost var all := Interleave(offspring);
      ghost var pairs := (popSize + 1) / 2;
      assert popSize <= 2 * pairs <= popSize + 1;
      newPop := [];
      var t := 0;
      while |newPop| < popSize
        invariant 2 * t <= popSize + 1 && t <= pairs
        invariant |newPop| == if 2 * t <= popSize then 2 * t else popSize
        invariant newPop == all[..|newPop|]
        decreases popSize - |newPop|
      {
        newPop := BreedStep(population, fitnesses, draws, offspring, newPop, t);
        t := t + 1;
      }
    }

    /** The draws for one generation fit the population and the genome. */
    predicate ValidGenerationDraws(draws: seq<PairDraws>) {
      |draws| >= (popSize + 1) / 2 && forall t :: 0 <= t < |draws| ==> ValidPairDraws(draws[t])
    }

    /** The population bred from `population` with its own fitnesses. */
    function Successor(population: seq<seq<int>>, draws: seq<PairDraws>): (next: seq<seq<int>>)
      requires |population| == popSize
      requires forall i :: 0 <= i < popSize ==> |population[i]| == genomeLength && IsBinary(population[i])
      requires ValidGenerationDraws(draws)
      ensures |next| == popSize
      ensures forall i :: 0 <= i < popSize ==> |next[i]| == genomeLength && IsBinary(next[i])
    {
      BredBinary(population, FitnessesOf(population), draws);
      Bred(population, FitnessesOf(population), draws)
    }

    /** The population evaluated in generation g: the initial one, then each bred from the
        one before with its fitnesses. */
    function Evolve(coin: (nat, nat) -> bool, draws: seq<seq<PairDraws>>, g: nat): (population: seq<seq<int>>)
      requires g <= |draws| && forall h :: 0 <= h < g ==> ValidGenerationDraws(draws[h])
      ensures |population| == popSize
      ensures forall i :: 0 <= i < popSize ==> |population[i]| == genomeLength && IsBinary(population[i])
    {
      if g == 0 then InitPopulation(coin)
      else
        var previous := Evolve(coin, draws, g - 1);
        assert ValidGenerationDraws(draws[g - 1]);
        Successor(previous, draws[g - 1])
    }

    /** One generation of Evolve: breeding from the previous population and its fitnesses. */
    lemma EvolveStep(coin: (nat, nat) -> bool, draws: seq<seq<PairDraws>>, g: nat,
                     previous: seq<seq<int>>, fitnesses: seq<real>, next: seq<seq<int>>)
      requires g < |draws| && forall h :: 0 <= h <= g ==> ValidGenerationDraws(draws[h])
      requires Sized(previous)
      requires previous == Evolve(coin, draws, g) && fitnesses == FitnessesOf(previous)
      requires ValidGenerationDraws(draws[g]) && next == Bred(previous, fitnesses, draws[g])
      ensures next == Evolve(coin, draws, g + 1)
    {
    }

    /** Appending generation g's population, and taking the next one from breeding, keeps
        `history` the sequence of generations. */
    lemma EvolutionExtend(coin: (nat, nat) -> bool, draws: seq<seq<PairDraws>>,
                          history: seq<seq<seq<int>>>, population: seq<seq<int>>, next: seq<seq<int>>)
      requires |history| < |draws| && forall h :: 0 <= h <= |history| ==> ValidGenerationDraws(draws[h])
      requires Evolution(coin, draws, history, population)
      requires next == Evolve(coin, draws, |history| + 1)
      ensures Evolution(coin, draws, history + [population], next)
    {
      var extended := history + [population];
      forall g | 0 <= g <= |history|
        ensures extended[g] == Evolve(coin, draws, g)
      {
        if g < |history| {
          assert extended[g] == history[g];
        }
      }
    }

    /** The breeding half of generation g of `run`: the population of generation g + 1. */
    method BreedGeneration(ghost coin: (nat, nat) -> bool, draws: seq<seq<PairDraws>>, gen: nat,
                           population: seq<seq<int>>, fitnesses: seq<real>)
      returns (next: seq<seq<int>>)
      requires gen < |draws| && forall h :: 0 <= h <= gen ==> ValidGenerationDraws(draws[h])
      requires population == Evolve(coin, draws, gen)
      requires |fitnesses| == |population|
      requires forall i :: 0 <= i < |population| ==> fitnesses[i] == FitnessOf(population[i])
      ensures next == Evolve(coin, draws, gen + 1)
    {
      assert fitnesses == FitnessesOf(population);
      next := NextGeneration(population, fitnesses, draws[gen]);
      EvolveStep(coin, draws, gen, population, fitnesses, next);
    }

    /** A population of `pop_size` individuals of `genome_length` genes. */
    ghost predicate Sized(population: seq<seq<int>>) {
      |population| == popSize && forall i :: 0 <= i < popSize ==> |population[i]| == genomeLength
    }

    /** Every recorded generation is Sized. */
    ghost predicate Shaped(history: seq<seq<seq<int>>>) {
      forall g :: 0 <= g < |history| ==> Sized(history[g])
    }

    /** The best-ever fitness stays an upper bound on every recorded individual once a new
        generation, all of whose fitnesses lie below it, is appended. */
    lemma FitnessBoundExtend(history: seq<seq<seq<int>>>, population: seq<seq<int>>, fitnesses: seq<real>,
                             bounded: bool, before: real, after: real)
      requires Shaped(history) && Sized(population)
      requires bounded ==> before <= after
      requires bounded ==>
                 forall g, i :: 0 <= g < |history| && 0 <= i < popSize ==> FitnessOf(history[g][i]) <= before
      requires !bounded ==> |history| == 0
      requires |fitnesses| == popSize
      requires forall i :: 0 <= i < popSize ==> fitnesses[i] == FitnessOf(population[i]) && fitnesses[i] <= after
      ensures Shaped(history + [population])
      ensures forall g, i :: 0 <= g <= |history| && 0 <= i < popSize ==>
                FitnessOf((history + [population])[g][i]) <= after
    {
      var extended := history + [population];
      forall g | 0 <= g <= |history|
        ensures extended[g] == if g < |history| then history[g] else population
      {
      }
    }

    /** The best-ever fitness bounds the fitness of every recorded individual. */
    ghost predicate Bounded(history: seq<seq<seq<int>>>)
      reads this
    {
      && Shaped(history)
      && (bestChromosome.Some? ==>
            forall g, i :: 0 <= g < |history| && 0 <= i < popSize ==> FitnessOf(history[g][i]) <= bestFitness)
    }

    /** `history` holds generations 0 .. |history| - 1 and `population` is the next one. */
    ghost predicate Evolution(coin: (nat, nat) -> bool, draws: seq<seq<PairDraws>>,
                              history: seq<seq<seq<int>>>, population: seq<seq<int>>)
    {
      && |history| <= |draws|
      && (forall h :: 0 <= h < |history| ==> ValidGenerationDraws(draws[h]))
      && population == Evolve(coin, draws, |history|)
      && (forall g :: 0 <= g < |history| ==> history[g] == Evolve(coin, draws, g))
    }

    /** What evaluating `population` does to the best-ever individual, from `before` with fitness
        `beforeFitness` to `after` with fitness `afterFitness`: either nothing changes, or
        (`improved`) the new best is individual `w`, strictly fitter than the old one, and every
        individual evaluated before it is strictly less fit, so that a tie keeps the first. */
    ghost predicate Improvement(before: Option<seq<int>>, beforeFitness: real,
                                after: Option<seq<int>>, afterFitness: real,
                                population: seq<seq<int>>, improved: bool, w: nat)
      requires forall i :: 0 <= i < |population| ==> |population[i]| == genomeLength
    {
      && (!improved ==> after == before && afterFitness == beforeFitness)
      && (improved ==>
            && w < |population| && after == Some(population[w])
            && (before.None? || beforeFitness < afterFitness)
            && forall k :: 0 <= k < w ==> FitnessOf(population[k]) < afterFitness)
    }

    /** The best-ever individual `best`, of fitness `bestFitness`, against the recorded
        generations: either it is still `start` (fitness `startFitness`), or (`improved`) it is
        individual `w` of generation `g`, strictly fitter than `start`, and every individual
        evaluated before it, in an earlier generation or earlier in generation `g`, is strictly
        less fit. */
    ghost predicate Tracked(best: Option<seq<int>>, bestFitness: real,
                            start: Option<seq<int>>, startFitness: real,
                            history: seq<seq<seq<int>>>, improved: bool, g: nat, w: nat)
      requires Shaped(history)
    {
      && (!improved ==> best == start && bestFitness == startFitness)
      && (improved ==>
            && g < |history| && w < popSize && best == Some(history[g][w])
            && (start.None? || startFitness < bestFitness)
            && forall h, i :: 0 <= h <= g && 0 <= i < popSize && (h < g || i < w) ==>
                 FitnessOf(history[h][i]) < bestFitness)
    }

    /** Recording a generation whose evaluation moved the best-ever individual as Improvement
        says keeps it Tracked; the returned generation and index locate the best. */
    lemma TrackedExtend(before: Option<seq<int>>, beforeFitness: real,
                        after: Option<seq<int>>, afterFitness: real,
                        start: Option<seq<int>>, startFitness: real,
                        history: seq<seq<seq<int>>>, population: seq<seq<int>>,
                        improved: bool, g: nat, w: nat, stepImproved: bool, stepW: nat)
      returns (g': nat, w': nat)
      requires Shaped(history) && Sized(population)
      requires Tracked(before, beforeFitness, start, startFitness, history, improved, g, w)
      requires before.None? ==> |history| == 0 || popSize == 0
      requires before.Some? ==>
                 forall h, i :: 0 <= h < |history| && 0 <= i < popSize ==> FitnessOf(history[h][i]) <= beforeFitness
      requires Improvement(before, beforeFitness, after, afterFitness, population, stepImproved, stepW)
      ensures Shaped(history + [population])
      ensures Tracked(after, afterFitness, start, startFitness, history + [population],
                      improved || stepImproved, g', w')
    {
      var extended := history + [population];
      assert forall h :: 0 <= h <= |history| ==>
               extended[h] == if h < |history| then history[h] else population;
      if stepImproved {
        g', w' := |history|, stepW;
      } else {
        g', w' := g, w;
      }
    }

    /** The evaluation half of a generation of `run`, with the bound it keeps: the best-ever
        fitness stays at least that of every recorded individual once `population` is
        recorded too. */
    method Evaluate(population: seq<seq<int>>, ghost history: seq<seq<seq<int>>>)
      returns (fitnesses: seq<real>, ghost improved: bool, ghost w: nat)
      requires Valid() && Bounded(history)
      requires Sized(population)
      requires |history| > 0 && popSize >= 1 ==> bestChromosome.Some?
      modifies this
      ensures Valid() && Bounded(history + [population])
      ensures |fitnesses| == popSize && forall i :: 0 <= i < popSize ==> fitnesses[i] == FitnessOf(population[i])
      ensures popSize >= 1 ==> bestChromosome.Some?
      ensures Improvement(old(bestChromosome), old(bestFitness), bestChromosome, bestFitness, population, improved, w)
    {
      ghost var bounded, before := bestChromosome.Some?, bestFitness;
      fitnesses, improved, w := EvaluatePopulation(population);
      if bestChromosome.Some? {
        FitnessBoundExtend(history, population, fitnesses, bounded, before, bestFitness);
      } else {
        assert Shaped(history + [population]);
      }
    }

    /** One generation of `run`: evaluate `population`, record it, and breed its successor. */
    method Generation(ghost coin: (nat, nat) -> bool, draws: seq<seq<PairDraws>>, gen: nat,
                      population: seq<seq<int>>, ghost history: seq<seq<seq<int>>>)
      returns (next: seq<seq<int>>, ghost extended: seq<seq<seq<int>>>, ghost improved: bool, ghost w: nat)
      requires Valid() && Evolution(coin, draws, history, population) && Bounded(history)
      requires gen == |history| < |draws| && forall h :: 0 <= h <= gen ==> ValidGenerationDraws(draws[h])
      requires gen > 0 && popSize >= 1 ==> bestChromosome.Some?
      modifies this
      ensures Valid() && Evolution(coin, draws, extended, next) && Bounded(extended)
      ensures extended == history + [population] && Sized(population)
      ensures popSize >= 1 ==> bestChromosome.Some?
      ensures Improvement(old(bestChromosome), old(bestFitness), bestChromosome, bestFitness, population, improved, w)
    {
      var fitnesses;
      fitnesses, improved, w := Evaluate(population, history);
      extended := history + [population];
      next := BreedGeneration(coin, draws, gen, population, fitnesses);
      EvolutionExtend(coin, draws, history, population, next);
    }

    /** The generational loop of `run`: evaluate, record the best-ever individual, breed.
        `history` holds the population of every generation as it was evaluated; when the
        best-ever individual changed (`improved`), it is individual `w` of generation `g`. */
    method Generations(coin: (nat, nat) -> bool, draws: seq<seq<PairDraws>>)
      returns (ghost history: seq<seq<seq<int>>>, ghost improved: bool, ghost g: nat, ghost w: nat)
      requires Valid()
      requires |draws| >= generations && forall g :: 0 <= g < generations ==> ValidGenerationDraws(draws[g])
      modifies this
      ensures Valid()
      ensures popSize >= 1 && generations >= 1 ==> bestChromosome.Some?
      ensures |history| == generations && Shaped(history)
      ensures forall g :: 0 <= g < generations ==> history[g] == Evolve(coin, draws, g)
      ensures bestChromosome.Some? ==>
                forall g, i :: 0 <= g < generations && 0 <= i < popSize ==> FitnessOf(history[g][i]) <= bestFitness
      ensures Tracked(bestChromosome, bestFitness, old(bestChromosome), old(bestFitness), history, improved, g, w)
    {
      var population := InitPopulation(coin);
      history, improved, g, w := [], false, 0, 0;
      for gen := 0 to generations
        invariant Valid() && |history| == gen
        invariant Evolution(coin, draws, history, population) && Bounded(history)
        invariant gen > 0 && popSize >= 1 ==> bestChromosome.Some?
        invariant Tracked(bestChromosome, bestFitness, old(bestChromosome), old(bestFitness), history, improved, g, w)
      {
        ghost var before, beforeFitness, recorded := bestChromosome, bestFitness, history;
        ghost var stepImproved, stepW;
        population, history, stepImproved, stepW := Generation(coin, draws, gen, population, history);
        g, w := TrackedExtend(before, beforeFitness, bestChromosome, bestFitness, old(bestChromosome),
                              old(bestFitness), recorded, history[gen], improved, g, w, stepImproved, stepW);
        improved := improved || stepImproved;
      }
    }

    /** `run`: evaluate and breed for `generations` generations, then decode the best-ever
        individual. `history` holds the population of every generation as it was evaluated;
        when the best-ever individual changed (`improved`), it is individual `w` of
        generation `g`, the first individual evaluated with the highest fitness. */
    method Run(coin: (nat, nat) -> bool, draws: seq<seq<PairDraws>>)
      returns (report: Solution, ghost history: seq<seq<seq<int>>>, ghost improved: bool, ghost g: nat, ghost w: nat)
      requires Valid()
      requires popSize >= 1 && generations >= 1
      requires |draws| >= generations && forall g :: 0 <= g < generations ==> ValidGenerationDraws(draws[g])
      modifies this
      ensures Valid() && bestChromosome.Some?
      ensures |history| == generations && Shaped(history)
      ensures forall g :: 0 <= g < generations ==> history[g] == Evolve(coin, draws, g)
      ensures forall g, i :: 0 <= g < generations && 0 <= i < popSize ==> FitnessOf(history[g][i]) <= bestFitness
      ensures Tracked(bestChromosome, bestFitness, old(bestChromosome), old(bestFitness), history, improved, g, w)
      ensures old(bestChromosome).None? ==> improved
      ensures IsReportOf(segments, distresses, budget, bestChromosome.value, bestFitness, bestCost, bestBenefit, report)
      ensures RepairedDeduction(report.distressStatus) == report.totalBenefit
    {
      history, improved, g, w := Generations(coin, draws);
      report := DecodeSolution();
    }

    /** The first loop of `decode_solution`: the report entries of the chosen segments. */
    method ListChosenSegments(segBits: seq<int>) returns (chosenSegments: seq<ChosenSegment>)
      requires |segBits| <= |segments|
      ensures var chosen := ChosenIndices(segBits);
              |chosenSegments| == |chosen|
              && forall k :: 0 <= k < |chosen| ==> chosenSegments[k] == ChosenSegmentOf(segments[chosen[k]])
    {
      chosenSegments := [];
      for idx := 0 to |segBits|
        invariant var chosen := ChosenIndices(segBits[..idx]);
                  |chosenSegments| == |chosen|
                  && forall k :: 0 <= k < |chosen| ==> chosenSegments[k] == ChosenSegmentOf(segments[chosen[k]])
      {
        assert segBits[..idx + 1][..idx] == segBits[..idx];
        if segBits[idx] == 1 {
          var s := segments[idx];
          chosenSegments := chosenSegments + [ChosenSegment(s.id, s.startM, s.endM, s.endM - s.startM, s.cost)];
        }
      }
      assert segBits[..|segBits|] == segBits;
    }

    /** The per-distress body of `decode_solution`: scan the listed segments for coverage,
        then fall back to the distress's own gene. */
    method DistressStatusOf(segBits: seq<int>, chosenSegments: seq<ChosenSegment>, d: Distress, bit: int)
      returns (status: DistressStatus)
      requires |segBits| <= |segments|
      requires var chosen := ChosenIndices(segBits);
               |chosenSegments| == |chosen|
               && forall k :: 0 <= k < |chosen| ==> chosenSegments[k] == ChosenSegmentOf(segments[chosen[k]])
      ensures status == StatusOf(segments, segBits, d, bit)
    {
      ghost var chosen := ChosenIndices(segBits);
      var loc := d.locationM;
      var coveredBySeg := false;
      var repairMethod := NotRepaired;
      for t := 0 to |chosenSegments|
        invariant !coveredBySeg && repairMethod == NotRepaired
        invariant forall u :: 0 <= u < t ==> !SegmentCovers(segments[chosen[u]], loc)
      {
        var s := chosenSegments[t];
        if s.startM <= loc <= s.endM {
          coveredBySeg := true;
          repairMethod := Resurfacing;
          assert SegmentCovers(segments[chosen[t]], loc) && segBits[chosen[t]] == 1;
          break;
        }
      }
      if !coveredBySeg {
        NotCoveredByChosen(segments, segBits, chosen, loc);
      } else {
        assert Covered(segments, segBits, loc);
      }

      var repaired := false;
      if coveredBySeg {
        repaired := true;
      } else {
        if bit == 1 {
          repaired := true;
          repairMethod := LocalRepair;
        }
      }
      status := DistressStatus(d.id, d.locationM, d.deduction, d.costLocal, repaired, repairMethod);
    }

    /** `decode_solution`: the report of the best-ever individual, with every distress labelled
        Resurfacing, Local repair or not repaired by the evaluator's coverage rule. */
    method DecodeSolution() returns (report: Solution)
      requires Valid() && bestChromosome.Some?
      ensures IsReportOf(segments, distresses, budget, bestChromosome.value, bestFitness, bestCost, bestBenefit, report)
      ensures RepairedDeduction(report.distressStatus) == report.totalBenefit
      ensures ResurfacingCost(report.chosenSegments) + LocalRepairCost(report.distressStatus) == report.totalCost
    {
      var best := bestChromosome.value;
      var nSeg := |segments|;
      var segBits := best[..nSeg];
      var locBits := best[nSeg..];

      var chosenSegments := ListChosenSegments(segBits);

      var distressStatus: seq<DistressStatus> := [];
      for idx := 0 to |distresses|
        invariant |distressStatus| == idx
        invariant forall j :: 0 <= j < idx ==>
                    distressStatus[j] == StatusOf(segments, segBits, distresses[j], locBits[j])
      {
        var status := DistressStatusOf(segBits, chosenSegments, distresses[idx], locBits[idx]);
        distressStatus := distressStatus + [status];
      }

      report := Solution(bestFitness, bestCost, bestBenefit, budget, chosenSegments, distressStatus);
      ReportAgreesWithFitness(segments, distresses, budget, lambdaBudget, lambdaOverlap, best, report);
    }
  }
}

=== FILE: journal_data.dfy ===
/**
  The built-in case study: twenty distresses from a published table, and the candidate
  resurfacing segments generated around them from a table of costs by segment length.
*/
module JournalData {
  import opened Road
  import opened Text

  /** One row of the distress table: number, kilometre post, metres past it, local cost. */
  datatype RawDistress = RawDistress(idx: nat, km: int, plus: int, cost: int)

  const DistressesRaw: seq<RawDistress> := [
    RawDistress(1, 3, 772, 454),
    RawDistress(2, 10, 529, 210),
    RawDistress(3, 9, 728, 567),
    RawDistress(4, 1, 324, 186),
    RawDistress(5, 7, 212, 435),
    RawDistress(6, 3, 595, 163),
    RawDistress(7, 7, 595, 260),
    RawDistress(8, 1, 107, 589),
    RawDistress(9, 10, 692, 635),
    RawDistress(10, 5, 349, 366),
    RawDistress(11, 11, 516, 410),
    RawDistress(12, 3, 675, 385),
    RawDistress(13, 2, 648, 517),
    RawDistress(14, 6, 479, 210),
    RawDistress(15, 8, 295, 367),
    RawDistress(16, 6, 918, 199),
    RawDistress(17, 11, 183, 594),
    RawDistress(18, 5, 903, 436),
    RawDistress(19, 9, 296, 564),
    RawDistress(20, 10, 132, 200)
  ]

  /** The deduction estimated from a local repair cost: one twentieth of it. */
  function EstimateDeduction(costLocal: real): (deduction: real)
    ensures deduction * 20.0 == costLocal
    ensures costLocal >= 0.0 ==> 0.0 <= deduction <= costLocal
  {
    costLocal / 20.0
  }

  /** The chainage in metres of a kilometre post plus an offset. */
  function Chainage(km: int, plus: int): int {
    km * 1000 + plus
  }

  /** `get_journal_distresses`: one record per table row, in table order. */
  method GetJournalDistresses() returns (distresses: seq<Distress>)
    ensures |distresses| == |DistressesRaw|
    ensures forall i :: 0 <= i < |distresses| ==>
              var raw := DistressesRaw[i];
              && distresses[i].id == "D" + NatToString(raw.idx)
              && distresses[i].locationM == Chainage(raw.km, raw.plus) as real
              && distresses[i].deduction * 20.0 == raw.cost as real
              && distresses[i].costLocal == raw.cost as real
    ensures forall i, j ::
              0 <= i < |distresses| && 0 <= j < |distresses| && DistressesRaw[i].idx != DistressesRaw[j].idx ==>
                distresses[i].id != distresses[j].id
  {
    distresses := [];
    for i := 0 to |DistressesRaw|
      invariant |distresses| == i
      invariant forall k :: 0 <= k < i ==>
                  var raw := DistressesRaw[k];
                  && distresses[k].id == "D" + NatToString(raw.idx)
                  && distresses[k].locationM == Chainage(raw.km, raw.plus) as real
                  && distresses[k].deduction * 20.0 == raw.cost as real
                  && distresses[k].costLocal == raw.cost as real
    {
      var RawDistress(idx, km, plus, cost) := DistressesRaw[i];
      var location := km * 1000 + plus;
      var deduction := EstimateDeduction(cost as real);
      distresses := distresses + [Distress("D" + NatToString(idx), location as real, deduction, cost as real)];
    }
    forall i, j | 0 <= i < |distresses| && 0 <= j < |distresses| && DistressesRaw[i].idx != DistressesRaw[j].idx
      ensures distresses[i].id != distresses[j].id
    {
      PrefixedIdInjective("D", DistressesRaw[i].idx, DistressesRaw[j].idx);
    }
  }

  /** Resurfacing cost by segment length in metres. */
  const CostByLength: map<int, int> := map[
    5 := 6400, 10 := 7700, 15 := 9033, 20 := 10267, 25 := 11333, 30 := 12567,
    35 := 15733, 40 := 17000, 45 := 18233, 50 := 19467, 100 := 31000, 150 := 43333,
    200 := 56000, 250 := 68000, 300 := 80333, 350 := 93333
  ]

  /** The lengths the generator uses, short ones for spot repair and long ones for coverage. */
  const EfficientLengths: seq<int> := [5, 10, 15, 20, 30, 50, 100, 150, 200, 300]

  /** The end of the road in metres. */
  const RoadEndM: real := 12000.0

  /** Two candidate starts closer than this count as the same segment. */
  const StartToleranceM: real := 10.0

  /** A generated segment; it also records its length. */
  datatype CandidateSegment = CandidateSegment(id: string, startM: real, endM: real, length: real, cost: real)

  function Abs(x: real): real {
    if x < 0.0 then -x else x
  }

  /** The start of the segment of `length` centred on `loc`, moved to lie on the road: first
      raised to 0 if negative, then pulled back so that it ends at the road end if it would
      run past it. */
  function CandidateStart(loc: real, length: int): (start: real)
    ensures loc - length as real / 2.0 >= 0.0 && loc + length as real / 2.0 <= RoadEndM ==>
              start == loc - length as real / 2.0
    ensures 0 <= length && length as real <= RoadEndM ==>
              0.0 <= start && start + length as real <= RoadEndM
  {
    var centred := loc - length as real / 2.0;
    var raised := if centred < 0.0 then 0.0 else centred;
    if raised + length as real > RoadEndM then RoadEndM - length as real else raised
  }

  /** The candidate for `loc` and `length` lies within the road. */
  predicate Fits(loc: real, length: int) {
    var start := CandidateStart(loc, length);
    start >= 0.0 && start + length as real <= RoadEndM
  }

  /** `existing` counts as a duplicate of a candidate starting at `start` with `length`. */
  predicate TooClose(existing: CandidateSegment, start: real, length: real) {
    Abs(existing.startM - start) < StartToleranceM && Abs(existing.length - length) < 1.0
  }

  /** Some segment already in `segments` counts as a duplicate of the candidate. */
  predicate HasNear(segments: seq<CandidateSegment>, start: real, length: real) {
    exists k :: 0 <= k < |segments| && TooClose(segments[k], start, length)
  }

  /** Each segment lies on the road, is as long as its recorded length, which is one of
      `lengths`, costs what the table says for that length, and is numbered by its position. */
  predicate WellFormed(segments: seq<CandidateSegment>, lengths: seq<int>, costByLength: map<int, int>) {
    forall k :: 0 <= k < |segments| ==> WellFormedAt(segments[k], k, lengths, costByLength)
  }

  /** The conditions of WellFormed on the segment at position `k`. */
  predicate WellFormedAt(s: CandidateSegment, k: nat, lengths: seq<int>, costByLength: map<int, int>) {
    && 0.0 <= s.startM && s.endM <= RoadEndM
    && s.endM - s.startM == s.length
    && (exists l :: l in lengths && l in costByLength && s.length == l as real && s.cost == costByLength[l] as real)
    && s.id == "S" + NatToString(k + 1)
  }

  /** No later segment is a duplicate of an earlier one. */
  predicate NoNearDuplicates(segments: seq<CandidateSegment>) {
    forall k, l :: 0 <= k < l < |segments| ==> !TooClose(segments[k], segments[l].startM, segments[l].length)
  }

  /** Candidate (length index, location index) `p` is offered before `q`: lengths in the outer
      loop, locations in the inner one. */
  predicate Before(p: (nat, nat), q: (nat, nat)) {
    p.0 < q.0 || (p.0 == q.0 && p.1 < q.1)
  }

  /** `s`, kept at position `k`, is the segment built for the candidate of length
      `lengths[o.0]` at location `locations[o.1]`, and that candidate fits on the road. */
  predicate CandidateAt(s: CandidateSegment, k: nat, o: (nat, nat),
                        locations: seq<real>, lengths: seq<int>, costByLength: map<int, int>) {
    && o.0 < |lengths| && o.1 < |locations| && lengths[o.0] in costByLength
    && Fits(locations[o.1], lengths[o.0])
    && s == NewSegment(k + 1, locations[o.1], lengths[o.0], costByLength[lengths[o.0]])
  }

  /** Every kept segment is the segment of a fitting candidate, `origin` naming which, and the
      segments are kept in the order their candidates are offered. */
  predicate FromCandidates(segments: seq<CandidateSegment>, origin: seq<(nat, nat)>,
                           locations: seq<real>, lengths: seq<int>, costByLength: map<int, int>) {
    && |origin| == |segments|
    && (forall k :: 0 <= k < |segments| ==> CandidateAt(segments[k], k, origin[k], locations, lengths, costByLength))
    && (forall k, l :: 0 <= k < l < |origin| ==> Before(origin[k], origin[l]))
  }

  /** A segment kept no later than candidate (a, b), either its own segment or one kept before it
      was offered, counts as a duplicate of it. */
  predicate KeptNearBy(segments: seq<CandidateSegment>, origin: seq<(nat, nat)>, a: nat, b: nat,
                       locations: seq<real>, lengths: seq<int>) {
    && a < |lengths| && b < |locations|
    && exists k :: 0 <= k < |segments| && k < |origin| && !Before((a, b), origin[k]) &&
         TooClose(segments[k], CandidateStart(locations[b], lengths[a]), lengths[a] as real)
  }

  /** Every fitting candidate offered before `upTo` has a segment KeptNearBy it. */
  predicate CoveredInTurn(segments: seq<CandidateSegment>, origin: seq<(nat, nat)>, upTo: (nat, nat),
                          locations: seq<real>, lengths: seq<int>) {
    forall a, b :: 0 <= a < |lengths| && 0 <= b < |locations| && Before((a, b), upTo) && Fits(locations[b], lengths[a]) ==>
      KeptNearBy(segments, origin, a, b, locations, lengths)
  }

  /** The greedy rule of the generator, candidate by candidate: a fitting candidate is kept
      exactly when no segment kept before it counts as its duplicate. */
  lemma {:induction false} KeptIffNoEarlierNear(segments: seq<CandidateSegment>, origin: seq<(nat, nat)>,
                                                locations: seq<real>, lengths: seq<int>, costByLength: map<int, int>,
                                                a: nat, b: nat)
    requires FromCandidates(segments, origin, locations, lengths, costByLength) && NoNearDuplicates(segments)
    requires CoveredInTurn(segments, origin, (|lengths|, 0), locations, lengths)
    requires a < |lengths| && b < |locations| && Fits(locations[b], lengths[a])
    ensures (a, b) in origin <==>
              !exists k :: 0 <= k < |segments| && Before(origin[k], (a, b)) &&
                TooClose(segments[k], CandidateStart(locations[b], lengths[a]), lengths[a] as real)
  {
    var start, len := CandidateStart(locations[b], lengths[a]), lengths[a] as real;
    if (a, b) in origin {
      var l :| 0 <= l < |origin| && origin[l] == (a, b);
      assert CandidateAt(segments[l], l, origin[l], locations, lengths, costByLength);
      assert segments[l].startM == start && segments[l].length == len;
      forall k | 0 <= k < |segments| && Before(origin[k], (a, b))
        ensures !TooClose(segments[k], start, len)
      {
        OriginOrder(origin, k, l);
      }
    } else {
      assert KeptNearBy(segments, origin, a, b, locations, lengths);
      var k :| 0 <= k < |segments| && k < |origin| && !Before((a, b), origin[k]) && TooClose(segments[k], start, len);
      assert origin[k] != (a, b);
    }
  }

  /** The greedy rule keeps the first of three candidates 8 m apart: keeping only the middle
      one's segment leaves the first candidate without a segment kept in its turn. */
  lemma MiddleOnlyNotCoveredInTurn()
    ensures !KeptNearBy([NewSegment(1, 118.0, 20, 10267)], [(0, 1)], 0, 0, [110.0, 118.0, 126.0], [20])
  {
  }

  /** Origins increasing in offering order: an earlier-offered origin sits at an earlier position. */
  lemma OriginOrder(origin: seq<(nat, nat)>, k: nat, l: nat)
    requires forall i, j :: 0 <= i < j < |origin| ==> Before(origin[i], origin[j])
    requires k < |origin| && l < |origin| && Before(origin[k], origin[l])
    ensures k < l
  {
  }

  /** A segment kept no later than a candidate stays so when more segments are appended. */
  lemma KeptNearByPrefix(segments: seq<CandidateSegment>, origin: seq<(nat, nat)>, longer: seq<CandidateSegment>,
                         longerOrigin: seq<(nat, nat)>, a: nat, b: nat, locations: seq<real>, lengths: seq<int>)
    requires segments <= longer && origin <= longerOrigin
    requires KeptNearBy(segments, origin, a, b, locations, lengths)
    ensures KeptNearBy(longer, longerOrigin, a, b, locations, lengths)
  {
    var k :| 0 <= k < |segments| && k < |origin| && !Before((a, b), origin[k]) &&
             TooClose(segments[k], CandidateStart(locations[b], lengths[a]), lengths[a] as real);
    assert longer[k] == segments[k] && longerOrigin[k] == origin[k];
  }

  /** The candidate just offered is covered in turn: by its own segment when kept, and otherwise
      by the earlier segment it duplicates. */
  lemma OfferedKeptNearBy(segments: seq<CandidateSegment>, origin: seq<(nat, nat)>, next: seq<CandidateSegment>,
                          nextOrigin: seq<(nat, nat)>, segmentId: nat, locations: seq<real>, di: nat,
                          length: int, cost: int, lengths: seq<int>, a: nat)
    requires di < |locations| && a < |lengths| && lengths[a] == length && |origin| == |segments|
    requires Fits(locations[di], length)
    requires forall k :: 0 <= k < |origin| ==> Before(origin[k], (a, di))
    requires next == if !HasNear(segments, CandidateStart(locations[di], length), length as real)
                     then segments + [NewSegment(segmentId, locations[di], length, cost)]
                     else segments
    requires nextOrigin == if next == segments then origin else origin + [(a, di)]
    ensures KeptNearBy(next, nextOrigin, a, di, locations, lengths)
  {
    var start := CandidateStart(locations[di], length);
    if next == segments {
      var k :| 0 <= k < |segments| && TooClose(segments[k], start, length as real);
      assert Before(origin[k], (a, di));
    } else {
      assert next[|segments|] == NewSegment(segmentId, locations[di], length, cost);
      assert nextOrigin[|segments|] == (a, di);
    }
  }

  /** One step of the inner loop keeps every candidate offered so far covered in turn: a kept
      candidate by its own segment, a dropped one by the earlier segment it duplicates. */
  lemma OfferCoversInTurn(segments: seq<CandidateSegment>, origin: seq<(nat, nat)>, next: seq<CandidateSegment>,
                          nextOrigin: seq<(nat, nat)>, segmentId: nat, locations: seq<real>, di: nat,
                          length: int, cost: int, lengths: seq<int>, a: nat)
    requires di < |locations| && a < |lengths| && lengths[a] == length && |origin| == |segments|
    requires forall k :: 0 <= k < |origin| ==> Before(origin[k], (a, di))
    requires CoveredInTurn(segments, origin, (a, di), locations, lengths)
    requires next == if Fits(locations[di], length) && !HasNear(segments, CandidateStart(locations[di], length), length as real)
                     then segments + [NewSegment(segmentId, locations[di], length, cost)]
                     else segments
    requires nextOrigin == if next == segments then origin else origin + [(a, di)]
    ensures CoveredInTurn(next, nextOrigin, (a, di + 1), locations, lengths)
  {
    assert segments <= next && origin <= nextOrigin;
    forall a', b | 0 <= a' < |lengths| && 0 <= b < |locations| && Before((a', b), (a, di + 1)) && Fits(locations[b], lengths[a'])
      ensures KeptNearBy(next, nextOrigin, a', b, locations, lengths)
    {
      if Before((a', b), (a, di)) {
        KeptNearByPrefix(segments, origin, next, nextOrigin, a', b, locations, lengths);
      } else {
        assert a' == a && b == di;
        OfferedKeptNearBy(segments, origin, next, nextOrigin, segmentId, locations, di, length, cost, lengths, a);
      }
    }
  }

  /** Covering every location of length index `a` in turn is covering everything before the
      next length. */
  lemma CoveredThroughLength(segments: seq<CandidateSegment>, origin: seq<(nat, nat)>, a: nat,
                             locations: seq<real>, lengths: seq<int>)
    requires CoveredInTurn(segments, origin, (a, |locations|), locations, lengths)
    ensures CoveredInTurn(segments, origin, (a + 1, 0), locations, lengths)
  {
    forall a', b | 0 <= a' < |lengths| && 0 <= b < |locations| && Before((a', b), (a + 1, 0)) && Fits(locations[b], lengths[a'])
      ensures KeptNearBy(segments, origin, a', b, locations, lengths)
    {
      assert Before((a', b), (a, |locations|));
    }
  }

  /** Appending the segment of a candidate offered after all earlier ones keeps FromCandidates. */
  lemma FromCandidatesAppend(segments: seq<CandidateSegment>, origin: seq<(nat, nat)>, s: CandidateSegment,
                             o: (nat, nat), locations: seq<real>, lengths: seq<int>, costByLength: map<int, int>)
    requires FromCandidates(segments, origin, locations, lengths, costByLength)
    requires CandidateAt(s, |segments|, o, locations, lengths, costByLength)
    requires forall k :: 0 <= k < |origin| ==> Before(origin[k], o)
    ensures FromCandidates(segments + [s], origin + [o], locations, lengths, costByLength)
  {
    var t, u := segments + [s], origin + [o];
    assert forall k :: 0 <= k < |segments| ==> t[k] == segments[k] && u[k] == origin[k];
    assert t[|segments|] == s && u[|segments|] == o;
  }

  /** One step of the generator's inner loop keeps FromCandidates: a segment it appends is that
      of candidate (a, di), offered after every candidate kept so far. */
  lemma OfferKeepsOrigin(segments: seq<CandidateSegment>, origin: seq<(nat, nat)>, next: seq<CandidateSegment>,
                         segmentId: nat, locations: seq<real>, di: nat, length: int, cost: int,
                         lengths: seq<int>, costByLength: map<int, int>, a: nat)
    returns (nextOrigin: seq<(nat, nat)>)
    requires segmentId == |segments| + 1 && di < |locations|
    requires a < |lengths| && lengths[a] == length && length in costByLength && cost == costByLength[length]
    requires FromCandidates(segments, origin, locations, lengths, costByLength)
    requires forall k :: 0 <= k < |origin| ==> Before(origin[k], (a, di))
    requires next == if Fits(locations[di], length) && !HasNear(segments, CandidateStart(locations[di], length), length as real)
                     then segments + [NewSegment(segmentId, locations[di], length, cost)]
                     else segments
    ensures FromCandidates(next, nextOrigin, locations, lengths, costByLength)
    ensures forall k :: 0 <= k < |nextOrigin| ==> Before(nextOrigin[k], (a, di + 1))
    ensures nextOrigin == if next == segments then origin else origin + [(a, di)]
  {
    if next == segments {
      nextOrigin := origin;
    } else {
      FromCandidatesAppend(segments, origin, NewSegment(segmentId, locations[di], length, cost), (a, di),
                           locations, lengths, costByLength);
      nextOrigin := origin + [(a, di)];
    }
  }

  /** Numbering by position makes the segment ids distinct. */
  lemma SegmentIdsDistinct(segments: seq<CandidateSegment>, lengths: seq<int>, costByLength: map<int, int>)
    requires WellFormed(segments, lengths, costByLength)
    ensures forall k, l :: 0 <= k < l < |segments| ==> segments[k].id != segments[l].id
  {
    forall k, l | 0 <= k < l < |segments|
      ensures segments[k].id != segments[l].id
    {
      assert WellFormedAt(segments[k], k, lengths, costByLength);
      assert WellFormedAt(segments[l], l, lengths, costByLength);
      PrefixedIdInjective("S", k + 1, l + 1);
    }
  }

  /** A candidate found near a segment stays near it when more segments are appended. */
  lemma HasNearPrefix(segments: seq<CandidateSegment>, longer: seq<CandidateSegment>, start: real, length: real)
    requires segments <= longer
    requires HasNear(segments, start, length)
    ensures HasNear(longer, start, length)
  {
    var k :| 0 <= k < |segments| && TooClose(segments[k], start, length);
    assert longer[k] == segments[k];
  }

  /** What the tolerance guarantees: a kept segment of the same length that counts as a
      duplicate of the centred candidate still covers the distress, once the segment is at
      least twice the tolerance long and the centred candidate needed no moving. */
  lemma NearSegmentCoversDistress(s: CandidateSegment, loc: real, length: int)
    requires s.endM - s.startM == s.length == length as real
    requires 2.0 * StartToleranceM <= length as real
    requires loc - length as real / 2.0 >= 0.0 && loc + length as real / 2.0 <= RoadEndM
    requires TooClose(s, CandidateStart(loc, length), length as real)
    ensures s.startM <= loc <= s.endM
  {
  }

  /** Below twice the tolerance the guarantee fails: the 5 m segment centred on 100 m counts
      as a duplicate of the candidate for a distress at 108 m but does not cover it. */
  lemma ShortNearSegmentMissesDistress()
    ensures TooClose(NewSegment(1, 100.0, 5, 6400), CandidateStart(108.0, 5), 5.0)
    ensures !(NewSegment(1, 100.0, 5, 6400).startM <= 108.0 <= NewSegment(1, 100.0, 5, 6400).endM)
  {
  }

  /** Near the road's ends the guarantee fails for long segments too: the candidate for a
      distress at 5 m is moved to start at 0, and the 100 m segment starting at 8 m counts as its
      duplicate yet does not cover the distress. */
  lemma MovedNearSegmentMissesDistress()
    ensures CandidateStart(5.0, 100) == 0.0
    ensures TooClose(NewSegment(1, 58.0, 100, 31000), CandidateStart(5.0, 100), 100.0)
    ensures !(NewSegment(1, 58.0, 100, 31000).startM <= 5.0 <= NewSegment(1, 58.0, 100, 31000).endM)
  {
  }

  /** The duplicate scan over the segments kept so far. */
  method IsDuplicate(segments: seq<CandidateSegment>, start: real, length: real) returns (isDuplicate: bool)
    ensures isDuplicate <==> HasNear(segments, start, length)
  {
    isDuplicate := false;
    for e := 0 to |segments|
      invariant !isDuplicate
      invariant forall k :: 0 <= k < e ==> !TooClose(segments[k], start, length)
    {
      var existing := segments[e];
      if Abs(existing.startM - start) < StartToleranceM && Abs(existing.length - length) < 1.0 {
        isDuplicate := true;
        break;
      }
    }
  }

  /** The segment the generator appends for a candidate. */
  function NewSegment(segmentId: nat, loc: real, length: int, cost: int): (s: CandidateSegment)
    ensures s.endM - s.startM == s.length == length as real
    ensures TooClose(s, CandidateStart(loc, length), length as real)
  {
    var start := CandidateStart(loc, length);
    CandidateSegment("S" + NatToString(segmentId), start, start + length as real, length as real, cost as real)
  }

  /** Extending the list keeps the locations already covered covered, so one more location
      covered by the extension widens the covered prefix by one. */
  lemma CoverageStep(segments: seq<CandidateSegment>, longer: seq<CandidateSegment>, locations: seq<real>,
                     di: nat, length: int)
    requires segments <= longer && di < |locations|
    requires forall b :: 0 <= b < di && Fits(locations[b], length) ==>
               HasNear(segments, CandidateStart(locations[b], length), length as real)
    requires Fits(locations[di], length) ==> HasNear(longer, CandidateStart(locations[di], length), length as real)
    ensures forall b :: 0 <= b < di + 1 && Fits(locations[b], length) ==>
              HasNear(longer, CandidateStart(locations[b], length), length as real)
  {
    forall b | 0 <= b < di && Fits(locations[b], length)
      ensures HasNear(longer, CandidateStart(locations[b], length), length as real)
    {
      HasNearPrefix(segments, longer, CandidateStart(locations[b], length), length as real);
    }
  }

  /** One step of the generator: the candidate for `distressLoc` and `length`, moved onto the
      road, is appended unless it still lies off the road or duplicates a kept segment. */
  method OfferCandidate(segments: seq<CandidateSegment>, segmentId: nat, distressLoc: real, length: int, cost: int,
                        ghost lengths: seq<int>, ghost costByLength: map<int, int>)
    returns (next: seq<CandidateSegment>)
    requires segmentId == |segments| + 1
    requires WellFormed(segments, lengths, costByLength) && NoNearDuplicates(segments)
    requires length in lengths && length in costByLength && cost == costByLength[length]
    ensures next == if Fits(distressLoc, length) && !HasNear(segments, CandidateStart(distressLoc, length), length as real)
                    then segments + [NewSegment(segmentId, distressLoc, length, cost)]
                    else segments
    ensures WellFormed(next, lengths, costByLength) && NoNearDuplicates(next)
    ensures Fits(distressLoc, length) ==> HasNear(next, CandidateStart(distressLoc, length), length as real)
  {
    next := segments;
    var start := distressLoc - length as real / 2.0;
    if start < 0.0 {
      start := 0.0;
    }
    var end := start + length as real;
    if end > RoadEndM {
      start := RoadEndM - length as real;
      end := RoadEndM;
    }
    assert start == CandidateStart(distressLoc, length) && end == start + length as real;
    if start >= 0.0 && end <= RoadEndM {
      var isDuplicate := IsDuplicate(segments, start, length as real);
      if !isDuplicate {
        var s := CandidateSegment("S" + NatToString(segmentId), start, end, length as real, cost as real);
        AppendKeepsInvariants(segments, s, lengths, costByLength, length);
        next := segments + [s];
        assert TooClose(next[|segments|], start, length as real);
      }
    }
  }

  /** The inner loop of the generator: every location in order is offered with one length. */
  method OfferLocations(segments: seq<CandidateSegment>, segmentId: nat, locations: seq<real>, length: int, cost: int,
                        ghost lengths: seq<int>, ghost costByLength: map<int, int>,
                        ghost a: nat, ghost origin: seq<(nat, nat)>)
    returns (next: seq<CandidateSegment>, nextId: nat, ghost nextOrigin: seq<(nat, nat)>)
    requires segmentId == |segments| + 1
    requires WellFormed(segments, lengths, costByLength) && NoNearDuplicates(segments)
    requires length in lengths && length in costByLength && cost == costByLength[length]
    requires a < |lengths| && lengths[a] == length
    requires FromCandidates(segments, origin, locations, lengths, costByLength)
    requires forall k :: 0 <= k < |origin| ==> Before(origin[k], (a, 0))
    requires CoveredInTurn(segments, origin, (a, 0), locations, lengths)
    ensures nextId == |next| + 1 && segments <= next
    ensures WellFormed(next, lengths, costByLength) && NoNearDuplicates(next)
    ensures forall b :: 0 <= b < |locations| && Fits(locations[b], length) ==>
              HasNear(next, CandidateStart(locations[b], length), length as real)
    ensures FromCandidates(next, nextOrigin, locations, lengths, costByLength)
    ensures forall k :: 0 <= k < |nextOrigin| ==> Before(nextOrigin[k], (a + 1, 0))
    ensures CoveredInTurn(next, nextOrigin, (a + 1, 0), locations, lengths)
  {
    next, nextId, nextOrigin := segments, segmentId, origin;
    for di := 0 to |locations|
      invariant nextId == |next| + 1 && segments <= next
      invariant WellFormed(next, lengths, costByLength) && NoNearDuplicates(next)
      invariant forall b :: 0 <= b < di && Fits(locations[b], length) ==>
                  HasNear(next, CandidateStart(locations[b], length), length as real)
      invariant FromCandidates(next, nextOrigin, locations, lengths, costByLength)
      invariant forall k :: 0 <= k < |nextOrigin| ==> Before(nextOrigin[k], (a, di))
      invariant CoveredInTurn(next, nextOrigin, (a, di), locations, lengths)
    {
      var offered := OfferCandidate(next, nextId, locations[di], length, cost, lengths, costByLength);
      CoverageStep(next, offered, locations, di, length);
      var offeredOrigin := OfferKeepsOrigin(next, nextOrigin, offered, nextId, locations, di, length, cost,
                                            lengths, costByLength, a);
      OfferCoversInTurn(next, nextOrigin, offered, offeredOrigin, nextId, locations, di, length, cost, lengths, a);
      nextOrigin := offeredOrigin;
      if offered != next {
        nextId := nextId + 1;
      }
      next := offered;
    }
    CoveredThroughLength(next, nextOrigin, a, locations, lengths);
  }

  /** `get_journal_segments` after the distress locations and the two tables are in hand: every
      length in order, and for each every location in order, is offered to the generator. */
  method GenerateSegments(locations: seq<real>, lengths: seq<int>, costByLength: map<int, int>)
    returns (segments: seq<CandidateSegment>, ghost origin: seq<(nat, nat)>)
    requires forall l :: l in lengths ==> l in costByLength
    ensures WellFormed(segments, lengths, costByLength)
    ensures NoNearDuplicates(segments)
    ensures forall a, b :: 0 <= a < |lengths| && 0 <= b < |locations| && Fits(locations[b], lengths[a]) ==>
              HasNear(segments, CandidateStart(locations[b], lengths[a]), lengths[a] as real)
    ensures FromCandidates(segments, origin, locations, lengths, costByLength)
    ensures forall a, b :: 0 <= a < |lengths| && 0 <= b < |locations| && Fits(locations[b], lengths[a]) ==>
              KeptNearBy(segments, origin, a, b, locations, lengths)
    ensures forall k, l :: 0 <= k < l < |segments| ==> segments[k].id != segments[l].id
  {
    segments, origin := [], [];
    var segmentId: nat := 1;
    for li := 0 to |lengths|
      invariant segmentId == |segments| + 1
      invariant WellFormed(segments, lengths, costByLength)
      invariant NoNearDuplicates(segments)
      invariant forall a, b :: 0 <= a < li && 0 <= b < |locations| && Fits(locations[b], lengths[a]) ==>
                  HasNear(segments, CandidateStart(locations[b], lengths[a]), lengths[a] as real)
      invariant FromCandidates(segments, origin, locations, lengths, costByLength)
      invariant forall k :: 0 <= k < |origin| ==> Before(origin[k], (li, 0))
      invariant CoveredInTurn(segments, origin, (li, 0), locations, lengths)
    {
      var length := lengths[li];
      var next, nextId, nextOrigin := OfferLocations(segments, segmentId, locations, length, costByLength[length],
                                                     lengths, costByLength, li, origin);
      forall a, b | 0 <= a < li && 0 <= b < |locations| && Fits(locations[b], lengths[a])
        ensures HasNear(next, CandidateStart(locations[b], lengths[a]), lengths[a] as real)
      {
        HasNearPrefix(segments, next, CandidateStart(locations[b], lengths[a]), lengths[a] as real);
      }
      segments, segmentId, origin := next, nextId, nextOrigin;
    }
    SegmentIdsDistinct(segments, lengths, costByLength);
    assert CoveredInTurn(segments, origin, (|lengths|, 0), locations, lengths);
  }

  /** Appending a fresh, well-formed, non-duplicate segment keeps the generator's invariants. */
  lemma AppendKeepsInvariants(segments: seq<CandidateSegment>, s: CandidateSegment, lengths: seq<int>,
                              costByLength: map<int, int>, length: int)
    requires WellFormed(segments, lengths, costByLength) && NoNearDuplicates(segments)
    requires length in lengths && length in costByLength
    requires 0.0 <= s.startM && s.endM <= RoadEndM && s.endM - s.startM == s.length
    requires s.length == length as real && s.cost == costByLength[length] as real
    requires s.id == "S" + NatToString(|segments| + 1)
    requires forall k :: 0 <= k < |segments| ==> !TooClose(segments[k], s.startM, length as real)
    ensures WellFormed(segments + [s], lengths, costByLength)
    ensures NoNearDuplicates(segments + [s])
  {
    AppendKeepsWellFormed(segments, s, lengths, costByLength, length);
    AppendKeepsApart(segments, s, length);
  }

  lemma AppendKeepsWellFormed(segments: seq<CandidateSegment>, s: CandidateSegment, lengths: seq<int>,
                              costByLength: map<int, int>, length: int)
    requires WellFormed(segments, lengths, costByLength)
    requires length in lengths && length in costByLength
    requires 0.0 <= s.startM && s.endM <= RoadEndM && s.endM - s.startM == s.length
    requires s.length == length as real && s.cost == costByLength[length] as real
    requires s.id == "S" + NatToString(|segments| + 1)
    ensures WellFormed(segments + [s], lengths, costByLength)
  {
    var t := segments + [s];
    assert forall k :: 0 <= k < |segments| ==> t[k] == segments[k];
    assert WellFormedAt(t[|segments|], |segments|, lengths, costByLength);
  }

  lemma AppendKeepsApart(segments: seq<CandidateSegment>, s: CandidateSegment, length: int)
    requires NoNearDuplicates(segments)
    requires s.length == length as real
    requires forall k :: 0 <= k < |segments| ==> !TooClose(segments[k], s.startM, length as real)
    ensures NoNearDuplicates(segments + [s])
  {
    var t := segments + [s];
    forall k, l | 0 <= k < l < |t|
      ensures !TooClose(t[k], t[l].startM, t[l].length)
    {
      assert t[k] == segments[k];
      if l == |segments| {
        assert t[l] == s;
      } else {
        assert t[l] == segments[l];
      }
    }
  }

  /** The chainages of the case-study distresses, in table order. */
  function JournalLocations(): (locations: seq<real>)
    ensures |locations| == |DistressesRaw|
  {
    seq(|DistressesRaw|, i requires 0 <= i < |DistressesRaw| => Chainage(DistressesRaw[i].km, DistressesRaw[i].plus) as real)
  }

  /** `get_journal_segments`: the candidates for the case-study distresses. */
  method GetJournalSegments() returns (segments: seq<CandidateSegment>, ghost origin: seq<(nat, nat)>)
    ensures WellFormed(segments, EfficientLengths, CostByLength)
    ensures NoNearDuplicates(segments)
    ensures FromCandidates(segments, origin, JournalLocations(), EfficientLengths, CostByLength)
    ensures forall a, b :: 0 <= a < |EfficientLengths| && 0 <= b < |DistressesRaw| && Fits(JournalLocations()[b], EfficientLengths[a]) ==>
              KeptNearBy(segments, origin, a, b, JournalLocations(), EfficientLengths)
    ensures forall k, l :: 0 <= k < l < |segments| ==> segments[k].id != segments[l].id
    ensures forall a, i :: 0 <= a < |EfficientLengths| && 0 <= i < |DistressesRaw| ==>
              var loc := Chainage(DistressesRaw[i].km, DistressesRaw[i].plus) as real;
              Fits(loc, EfficientLengths[a]) ==>
                HasNear(segments, CandidateStart(loc, EfficientLengths[a]), EfficientLengths[a] as real)
  {
    var distresses := GetJournalDistresses();
    var locations := seq(|distresses|, i requires 0 <= i < |distresses| => distresses[i].locationM);
    assert forall l :: l in EfficientLengths ==> l in CostByLength;
    assert locations == JournalLocations();
    segments, origin := GenerateSegments(locations, EfficientLengths, CostByLength);
    forall a, i | 0 <= a < |EfficientLengths| && 0 <= i < |DistressesRaw|
      ensures var loc := Chainage(DistressesRaw[i].km, DistressesRaw[i].plus) as real;
              Fits(loc, EfficientLengths[a]) ==>
                HasNear(segments, CandidateStart(loc, EfficientLengths[a]), EfficientLengths[a] as real)
    {
      assert locations[i] == Chainage(DistressesRaw[i].km, DistressesRaw[i].plus) as real;
    }
  }
}

=== FILE: road.dfy ===
/** The two catalogue entities the optimiser works on. */
module Road {

  /** A candidate resurfacing segment: it covers the closed interval [startM, endM]. */
  datatype Segment = Segment(id: string, startM: real, endM: real, cost: real)

  /** A point distress at `locationM`; repairing it restores `deduction` points of condition. */
  datatype Distress = Distress(id: string, locationM: real, deduction: real, costLocal: real)
}

=== FILE: text.dfy ===
/** The two pieces of string handling the core relies on: whitespace stripping and decimal ids. */
module Text {

  /** The characters Python 3's `str.strip()` removes: those `str.isspace()` accepts, that is
      the ASCII controls U+0009..U+000D and U+001C..U+001F, the space, U+0085, and the Unicode
      space separators and line and paragraph separators. */
  predicate IsWhitespace(c: char) {
    || '\U{9}' <= c <= '\U{D}' || '\U{1C}' <= c <= '\U{20}'
    || c == '\U{85}' || c == '\U{A0}' || c == '\U{1680}'
    || '\U{2000}' <= c <= '\U{200A}' || c == '\U{2028}' || c == '\U{2029}'
    || c == '\U{202F}' || c == '\U{205F}' || c == '\U{3000}'
  }

  /** Neither end of `s` is whitespace. */
  predicate Trimmed(s: string) {
    s != [] ==> !IsWhitespace(s[0]) && !IsWhitespace(s[|s| - 1])
  }

  predicate AllWhitespace(s: string) {
    forall i :: 0 <= i < |s| ==> IsWhitespace(s[i])
  }

  /** The first position at or after `i` that does not hold whitespace (`|s|` if none). */
  function ContentStart(s: string, i: nat): (k: nat)
    requires i <= |s|
    ensures i <= k <= |s|
    ensures forall m :: i <= m < k ==> IsWhitespace(s[m])
    ensures k < |s| ==> !IsWhitespace(s[k])
    decreases |s| - i
  {
    if i < |s| && IsWhitespace(s[i]) then ContentStart(s, i + 1) else i
  }

  /** The position just after the last character before `j`, and not before `lo`, that does
      not hold whitespace (`lo` if none). */
  function ContentEnd(s: string, lo: nat, j: nat): (k: nat)
    requires lo <= j <= |s|
    ensures lo <= k <= j
    ensures forall m :: k <= m < j ==> IsWhitespace(s[m])
    ensures lo < k ==> !IsWhitespace(s[k - 1])
    decreases j
  {
    if lo < j && IsWhitespace(s[j - 1]) then ContentEnd(s, lo, j - 1) else j
  }

  /** `s.strip()`: the slice of `s` left once leading and trailing whitespace is removed. */
  function Strip(s: string): (r: string)
    ensures exists i, j :: 0 <= i <= j <= |s| && r == s[i..j]
                          && AllWhitespace(s[..i]) && AllWhitespace(s[j..])
    ensures Trimmed(r)
  {
    var i := ContentStart(s, 0);
    var j := ContentEnd(s, i, |s|);
    assert forall m :: 0 <= m < i ==> s[..i][m] == s[m];
    assert forall m :: 0 <= m < |s| - j ==> s[j..][m] == s[j + m];
    s[i..j]
  }

  /** Stripping twice strips nothing more: a stripped id is its own stripped form. */
  lemma StripIdempotent(s: string)
    ensures Strip(Strip(s)) == Strip(s)
  {
    var r := Strip(s);
    assert ContentStart(r, 0) == 0;
    assert ContentEnd(r, 0, |r|) == |r|;
    assert r[0..|r|] == r;
  }

  function DigitChar(d: nat): (c: char)
    requires d < 10
    ensures '0' <= c <= '9' && (c as int) - ('0' as int) == d
  {
    (('0' as int) + d) as char
  }

  predicate IsDecimal(s: string) {
    |s| >= 1 && forall i :: 0 <= i < |s| ==> '0' <= s[i] <= '9'
  }

  /** Python's `str(n)` for a non-negative integer: its decimal digits, most significant first. */
  function NatToString(n: nat): (s: string)
    ensures IsDecimal(s)
  {
    if n < 10 then [DigitChar(n)] else NatToString(n / 10) + [DigitChar(n % 10)]
  }

  /** The number a string of decimal digits denotes: the inverse of NatToString. */
  function DecimalValue(s: string): nat
    requires IsDecimal(s)
  {
    var d := (s[|s| - 1] as int) - ('0' as int);
    if |s| == 1 then d else 10 * DecimalValue(s[..|s| - 1]) + d
  }

  lemma {:induction false} DecimalValueOfNatToString(n: nat)
    ensures DecimalValue(NatToString(n)) == n
  {
    if n >= 10 {
      var s := NatToString(n);
      assert s[..|s| - 1] == NatToString(n / 10);
      DecimalValueOfNatToString(n / 10);
    }
  }

  /** Distinct numbers print as distinct strings, so generated ids are unique. */
  lemma NatToStringInjective(a: nat, b: nat)
    ensures NatToString(a) == NatToString(b) ==> a == b
  {
    DecimalValueOfNatToString(a);
    DecimalValueOfNatToString(b);
  }

  /** Ids built as a fixed prefix followed by a number are unique per number. */
  lemma PrefixedIdInjective(prefix: string, a: nat, b: nat)
    ensures prefix + NatToString(a) == prefix + NatToString(b) ==> a == b
  {
    if prefix + NatToString(a) == prefix + NatToString(b) {
      assert NatToString(a) == (prefix + NatToString(a))[|prefix|..];
      assert NatToString(b) == (prefix + NatToString(b))[|prefix|..];
      NatToStringInjective(a, b);
    }
  }
}

=== FILE: wrappers.dfy ===
/** Option and Result wrappers shared by the other modules. */
module Wrappers {

  /** A value that may be absent; `None` stands for Python's `None`. */
  datatype Option<+T> = None | Some(value: T)

  /** The outcome of an operation that may raise: `Failure` carries the error kind. */
  datatype Result<+R, +E> = Success(value: R) | Failure(error: E)
}
